=== FILE: README.md ===
# Simple-FGD game catalog browser, modelled in Dafny

Simple-FGD is a terminal program. It loads a catalog of games (`games.json`) and lets the user browse it in three ways:

- all games, A-Z by title;
- the most recently updated games first;
- a title search.

From a listing the user opens a game's details. From there they can visit the store page or go to the download source prompt. At that prompt, a valid link number opens the link in the browser. Unless the answer is an all-digit numeral too long for `int`, the game's `.game` record is then written.

This project models the logic of `game_downloader.py`:

- the string helpers it calls: `get_store_name`, `get_host_name` and `extract_size_from_requirements`;
- the version summary `get_version_info`;
- the two orderings and the search filter of the list screens;
- the menus of `main_menu`, `display_game_list`, `search_games`, `display_game_details` and `download_game`. They form a state machine driven by the user's answers and by the result of loading the catalog.

Modules, one per file:

| module | file | what it holds |
|---|---|---|
| `Wrappers` | wrappers.dfy | `Option` |
| `Text` | text.dfy | The Python `str` operations the program uses: `lower`, `upper`, `in`, `replace(p, "")`, `split(c)[0]`, `title`, `isdigit`, `int`, `str` and `<=` on strings. |
| `Sorting` | sorting.dfy | `sorted(xs, key=k, reverse=...)` as a stable insertion sort on string keys. |
| `Urls` | urls.dfy | `urlparse(url).netloc`, the store classifier and the file-host classifier. |
| `Sizes` | sizes.dfy | The size pattern of `extract_size_from_requirements`, its leftmost search, and the size it reports. |
| `Timestamps` | timestamps.dfy | `%Y-%m-%dT%H:%M:%SZ` timestamps: their chronological order and their display to the minute. |
| `Catalog` | catalog.dfy | Game entries, `get_version_info`, the A-Z and latest-first listings, and the title search. |
| `Menu` | menu.dfy | Answer parsing and the menu state machine. |

A Python exception that ends the program becomes a `None` in `Catalog` and the terminal `Crashed` state in `Menu`. Three exceptions are modelled:

- `strptime` rejecting a date;
- `[-1]` on an empty version list;
- `int` rejecting an all-digit answer of more than 4300 digits. This is CPython's default limit on string-to-integer conversion (`sys.int_info.default_max_str_digits`). It is in force from Python 3.11 on and in the 3.10.7, 3.9.14, 3.8.14 and 3.7.14 security releases.

Case mapping covers the ASCII letters only. Every other character is treated as caseless.

## Model

| member | source | states |
|---|---|---|
| Text.Lower | game_downloader.py:22 | `lower()` keeps the length. |
| Text.LowerKeepsLetters | game_downloader.py:22 | Each character of `lower()`'s result is the original up to case, and none is upper-case. |
| Text.Upper | game_downloader.py:299 | `upper()` keeps the length. |
| Text.UpperKeepsLetters | game_downloader.py:299 | Each character of `upper()`'s result is the original up to case, and none is lower-case. |
| Text.LowerOfUpper | game_downloader.py:361 | Lower-casing an upper-cased string gives the same result as lower-casing the original. So `query.lower()` cannot tell a query from its upper-cased form. |
| Text.UpperIsB | game_downloader.py:299-302 | `answer.upper() == "B"` holds exactly for the answers "b" and "B". |
| Text.ContainsIff | game_downloader.py:23-28 | The left-to-right `in` scan is true exactly when `p` occurs at some index of `s`. |
| Text.ContainsEmpty | game_downloader.py:361 | The empty string is `in` every string. |
| Text.ContainsInSuffix | game_downloader.py:71 | A substring of a suffix is a substring of the whole string. |
| Text.RemoveAll | game_downloader.py:60 | `replace(p, "")` never lengthens the string. |
| Text.RemoveAllAbsent | game_downloader.py:60 | A string without `p` comes back unchanged. |
| Text.RemoveAllLeftmost | game_downloader.py:60 | Everything before the leftmost occurrence of `p` is kept verbatim. That occurrence is dropped, and the deletion resumes right after it. |
| Text.BeforeFirst | game_downloader.py:60 | `split(c)[0]` is a prefix free of `c`. Unless it is the whole string, `c` follows it. |
| Text.TitleFrom | game_downloader.py:60 | `title()` keeps the length. It changes only letters. A letter after a letter is lower-cased; any other letter is upper-cased. |
| Text.ShowNat | game_downloader.py:288 | `str(n)` is a non-empty numeral. It has no leading zero unless `n` is 0. |
| Text.ShowNatRoundTrip | game_downloader.py:288 | `int(str(n)) == n` |
| Text.DecimalValue | game_downloader.py:303 | `int` of a numeral of `k` digits is a number below 10^k. |
| Text.DecimalLeadingZero | game_downloader.py:303 | `int` ignores a leading zero. |
| Text.UpperOfDecimal | game_downloader.py:299-303 | Upper-casing an answer leaves a numeral unchanged. |
| Text.UpperKeepsDecimal | game_downloader.py:299-303 | An answer passes `isdigit()` after `upper()` exactly when it passes it before, and is then unchanged. |
| Text.BeforeFirstUpTo | game_downloader.py:60 | `split(c)[0]` stops at the first `c`. |
| Text.StrLeTotal | game_downloader.py:278 | Any two strings are comparable. |
| Text.StrLeAntisym | game_downloader.py:278 | Two strings that are each `<=` the other are equal. |
| Text.StrLeTrans | game_downloader.py:278 | String `<=` is transitive. |
| Sorting.StableSort | game_downloader.py:269-278 | `sorted` returns a permutation of its input. It is ordered by key, descending for `reverse=True`. Items with equal keys keep their input order. |
| Sorting.InsertSorted | game_downloader.py:269-278 | Inserting into a sorted sequence keeps it sorted. |
| Sorting.InsertGroups | game_downloader.py:269-278 | Insertion never reorders items with equal keys. |
| Sorting.InsertMultiset | game_downloader.py:269-278 | Insertion adds exactly the inserted item. |
| Sorting.WithKeyAppend | game_downloader.py:269-278 | The items with a given key in `a + b` are those of `a` followed by those of `b`. |
| Urls.Netloc | game_downloader.py:22 | The network location contains no '/', '?' or '#'. |
| Urls.NetlocOfComposed | game_downloader.py:22 | For `scheme://host` followed by a path, query or fragment, the network location is exactly `host`. |
| Urls.NetlocOfLower | game_downloader.py:22 | The network location of the lower-cased URL is the lower-cased network location of the URL. |
| Urls.FirstHit | game_downloader.py:54-57 | The table scan returns the first entry whose domain occurs in the network location. It returns nothing exactly when no domain occurs. |
| Urls.ClassifyStoreIsFirstHit | game_downloader.py:23-30 | The `if`/`elif` chain picks the store of the first matching domain, tried in the order steampowered.com, epicgames.com, gog.com. With no match it picks Unknown Store. |
| Urls.ClassifyStore | game_downloader.py:23-30 | The store is Steam exactly when steampowered.com occurs in the lower-cased network location. It is Unknown Store exactly when none of the three store domains occurs. |
| Urls.StoreNameIgnoresCase | game_downloader.py:21-22 | Two URLs that differ only in letter case get the same store. |
| Urls.NoStoreHit | game_downloader.py:23-30 | Unknown Store results exactly when none of the three domains occurs. |
| Urls.StoreName | game_downloader.py:21-30 | `get_store_name` returns one of four labels. It returns Steam exactly when steampowered.com occurs in the lower-cased network location. It returns Unknown Store exactly when no store domain occurs. |
| Urls.CleanDomain | game_downloader.py:60 | The fallback host label contains no '.'. |
| Urls.ClassifyHost | game_downloader.py:32-61 | The host label is the one of the first of the 15 known domains found in the lower-cased network location. When none is found, it is the cleaned-up domain. |
| Urls.HostName | game_downloader.py:32-61 | `get_host_name` gives the label of the first known host found in the URL's lower-cased network location. When none is found, it gives the cleaned-up domain. |
| Urls.HostNameIgnoresCase | game_downloader.py:32-33 | Two URLs that differ only in letter case get the same host label. |
| Sizes.MatchAt | game_downloader.py:68 | When the scanner accepts index `i`, a digit starts there and the pattern matches with the number ending where the scanner says. |
| Sizes.MatchAtDecides | game_downloader.py:68 | The scanner accepts index `i` exactly when the pattern `(\d+(?:\.\d+)?)\s*(?:GB\|MB) (?:available )?space` matches there, ignoring case. |
| Sizes.MatchAtComplete | game_downloader.py:68 | Every way the pattern can match at `i` is the one the greedy scanner finds. The number and the whitespace are forced. |
| Sizes.MatchSplitForced | game_downloader.py:68 | A match at `i` fixes where its number ends and where its whitespace ends. |
| Sizes.NoMatchBeyond | game_downloader.py:68 | No match starts at or past the end of the text. |
| Sizes.FindFrom | game_downloader.py:68 | The search from `i` reports a match with no match before it. It reports nothing exactly when no match starts at or after `i`. |
| Sizes.SearchFailsIffNoMatch | game_downloader.py:68-69 | `re.search` fails exactly when the pattern matches nowhere. |
| Sizes.SearchFindsLeftmost | game_downloader.py:68-70 | `re.search` reports the leftmost match, and `group(1)` is its number. |
| Sizes.ReportedUnit | game_downloader.py:71 | The unit reported is always "GB" or "MB". |
| Sizes.ReportedUnitIff | game_downloader.py:71 | The unit is "GB" exactly when the case-sensitive "GB" starts at some index of the text. |
| Sizes.ExtractSize | game_downloader.py:63-73 | The result is "Unknown size" exactly when the text is absent or the pattern matches nowhere. |
| Sizes.ExtractSizeAtLeftmost | game_downloader.py:68-72 | Otherwise the result is the leftmost match's number, a space, and "GB" when the text contains "GB" anywhere (else "MB"). |
| Sizes.ExtractSizeOfSizeLine | game_downloader.py:63-72 | A text opening with "<digits> <GB or MB in any case> available space" reports those digits. |
| Sizes.ExtractSizeOfGbAvailableSpace | game_downloader.py:63-72 | A text opening with "<digits> GB available space" reports "<digits> GB". |
| Sizes.MatchedUnitIsGbOrMb | game_downloader.py:68 | The unit a match spells, upper-cased, is "GB" or "MB". |
| Sizes.ReportedUnitTakenFromElsewhere | game_downloader.py:71 | Whatever unit the match spells, a "GB" later in the text makes the result say GB. |
| Sizes.GbWithoutCapitalReportedAsMb | game_downloader.py:71 | A unit spelled "gb" or "gB", with no capital G elsewhere, is reported as MB. |
| Sizes.NoGInSizeLine | game_downloader.py:71 | A size line without a capital G does not contain "GB". |
| Sizes.ExtractSizeMatchedUnit | game_downloader.py:63-73 | The corrected extractor says "Unknown size" exactly when the original does. |
| Sizes.MatchedUnitAtLeftmost | game_downloader.py:68-72 | The corrected extractor reports the leftmost match's number with the unit that match spelled, upper-cased. |
| Sizes.MatchedUnitOfFound | game_downloader.py:68-72 | The same, stated for the match the search reports. |
| Sizes.MatchedUnitOfSizeLine | game_downloader.py:63-72 | A text opening with "<digits> <unit> available space" reports the digits with that unit, upper-cased. |
| Timestamps.DefaultDateIsCanonical | game_downloader.py:248 | The default date "2000-01-01T00:00:00Z" is accepted by the format. |
| Timestamps.FixedWidthOrder | game_downloader.py:271-275 | On numerals of equal width, string order is numeric order. |
| Timestamps.SuffixOrder | game_downloader.py:271-275 | Comparing two timestamps from field `j` on compares the fields from `j` on, lexicographically. |
| Timestamps.StrLeIsChronological | game_downloader.py:271-275 | Two canonical timestamps compare as strings exactly as the `datetime` values they parse to compare. |
| Timestamps.SameStringSameInstant | game_downloader.py:271-275 | Two canonical timestamps are equal strings exactly when they denote the same instant. |
| Timestamps.ShowMinutes | game_downloader.py:248 | `strftime('%Y-%m-%d %H:%M')` keeps the date and the hours and minutes. The 'T' becomes a space, and the seconds are dropped. |
| Timestamps.ShowMinutesMonotone | game_downloader.py:248 | A later timestamp is never shown as an earlier minute. |
| Catalog.VersionInfoOf | game_downloader.py:242-255 | `get_version_info` raises exactly when the game has a non-empty version list and the latest record's date (or the default) does not parse. The shown date is "N/A" exactly when the game has no version history. |
| Catalog.VersionInfoUsesLastRecordOnly | game_downloader.py:244-245 | Records before the last one never affect the summary. |
| Catalog.VersionInfoPlaceholders | game_downloader.py:244-255 | Without a history the summary is the three placeholders. With one, it shows the latest record's version and changes, or their defaults. |
| Catalog.MissingDateShowsDefault | game_downloader.py:248 | A latest record without a date shows "2000-01-01 00:00". |
| Catalog.AToZ | game_downloader.py:278 | The A-Z listing is a permutation of the catalog, ordered by title. Equal titles keep their catalog order. |
| Catalog.LatestFirst | game_downloader.py:267-276 | The latest-first sort succeeds exactly when every game's key can be computed and parsed. It is then a permutation, ordered from the latest key down. Equal keys keep their catalog order. |
| Catalog.LatestFirstIsChronological | game_downloader.py:267-276 | Down the latest-first listing, the instants never increase. |
| Catalog.RecencyDate | game_downloader.py:271-272 | The latest-first sort key cannot be computed exactly when the version list is present but empty, where `[-1]` raises. It is the latest record's date, or the default, for a game with a history. It is the default date when the `versions` key is absent. |
| Catalog.ShownDateIsSortKey | game_downloader.py:271-272 | For a game with a history, the date shown in its row is its sort key cut to the minute. |
| Catalog.LatestFirstShowsNewestFirst | game_downloader.py:267-292 | Down the latest-first listing, the dates shown for games with a version history never increase. |
| Catalog.RendersSameMembers | game_downloader.py:285-292 | Whether a listing can be drawn depends only on which games it holds. |
| Catalog.LatestFirstRenders | game_downloader.py:267-292 | Once the latest-first sort succeeds, `get_version_info` cannot raise on any of its rows. |
| Catalog.Filter | game_downloader.py:359-362 | A game is a search result exactly when it is in the catalog and the lower-cased query occurs in its lower-cased title. |
| Catalog.Search | game_downloader.py:359-362 | The search results are the catalog's games whose lower-cased title contains the lower-cased query. |
| Catalog.FilterAppend | game_downloader.py:359-362 | Results keep their catalog order. |
| Catalog.SearchEmptyQuery | game_downloader.py:359-362 | The empty query returns the whole catalog in order. |
| Catalog.SearchIgnoresQueryCase | game_downloader.py:361 | Upper-casing the query never changes the results. |
| Menu.ParseSelection | game_downloader.py:303 | An answer selects a row exactly when it is all digits and its value lies between 1 and the number of rows. The row selected is the value minus one. |
| Menu.ParseSelectionOfRowNumber | game_downloader.py:303-304 | The row number printed in the `#` column selects that row. |
| Menu.LeadingZeroSelectsSameRow | game_downloader.py:299-307 | A leading "0" does not change the row a numeral selects, so "01" selects the same row as "1". The exception is a numeral of 4300 digits or more: the added zero takes it past the digit limit, and the listing prompt raises. |
| Menu.ListChoice | game_downloader.py:299-307 | The listing prompt goes to the main menu exactly on "b" or "B". It ends the program exactly on an all-digit answer of more than 4300 digits. Otherwise a valid row number opens that row's game, and any other answer shows the same listing again. |
| Menu.OpenList | game_downloader.py:364-398 | A listing is shown only if `get_version_info` succeeds on every row. An empty search result never shows a listing. Every other listing on which `get_version_info` succeeds is shown. |
| Menu.AfterLoad | game_downloader.py:414-432 | After a successful load, choice "4" exits and "3" opens the search prompt on the loaded catalog. "1" and "2" either raise or show a listing. For "1" the listing is the A-Z sort of the catalog; for "2" it is the latest-first sort. Any other choice returns to the main menu. |
| Menu.DetailChoice | game_downloader.py:337-349 | The details prompt opens the store page exactly on "1". It opens the download source prompt exactly on "2" for a game with links. "3" returns to the listing and "4" to the main menu. Any other answer stays on the details. |
| Menu.LinkEffects | game_downloader.py:217-240 | An answer to the download source prompt on which `int` does not raise writes the game's record, last. A valid link number first opens that link. |
| Menu.Run | game_downloader.py:400-432 | A run produces at most two effects per event. From an exit or an exception it produces nothing and stays put. |
| Menu.Step | game_downloader.py:400-432 | Only answers to the details and download source prompts have effects, at most two per step. Terminal states and unexpected events change nothing. |
| Menu.StepKeepsValid | game_downloader.py:400-432 | Every step keeps the reachable-state invariant. Shown listings can be drawn and search listings are non-empty. The game on screen belongs to its listing. The link prompt only appears for a game with links. |
| Menu.RunKeepsValid | game_downloader.py:400-432 | The same holds after any sequence of events. |
| Menu.ExitOnlyAfterLoad | game_downloader.py:414-432 | The program ends normally exactly when choice "4" is followed by a successful load. |
| Menu.FailedLoadReturnsToMenu | game_downloader.py:416-419 | A failed load goes back to the main menu with no effect. |
| Menu.NoExitWithoutCatalog | game_downloader.py:414-432 | If no load ever succeeds, the program never ends normally. |
| Menu.WriteRecordIff | game_downloader.py:217-240 | A record is written exactly when the download source prompt is answered with anything but an all-digit answer of more than 4300 digits, on which `int` raises first. It is the record of the game on screen. |
| Menu.OpenBrowserIff | game_downloader.py:217-234 | A browser opens exactly in two cases. Details choice "1" opens the store page. A valid link number on which `int` does not raise opens that link. |
| Menu.RecordsHaveLinks | game_downloader.py:186-240 | Every record written is of a game with download links. |
| Menu.SelectRow | game_downloader.py:299-304 | Answering a row number of at most 4300 digits opens that row's game. |
| Menu.BackIff | game_downloader.py:299-302 | A listing goes back to the main menu exactly on "b" or "B". |
| Menu.DetailChoices | game_downloader.py:337-349 | Details "3" goes back to the listing and "4" to the main menu. "2" opens the download source prompt for a game with links and stays on the details screen without them. Other answers are asked again. |
| Menu.EmptySearchReturnsToMenu | game_downloader.py:364-398 | A search goes straight back to the main menu exactly when nothing matches. |
| Menu.EmptyQueryListsAll | game_downloader.py:359-364 | The empty search term lists the whole catalog in stored order. |
| Menu.AfterLoadCrashIff | game_downloader.py:267-292 | Opening a catalog listing raises in `get_version_info` or in the sort key exactly in two cases. For A-Z, some game's latest date does not parse. For latest-first, some game's sort key cannot be computed or parsed. |
| Menu.SearchCrashIff | game_downloader.py:359-376 | A search raises in `get_version_info` exactly when a matching game's latest date does not parse. |
| Menu.CrashIff | game_downloader.py:219-398 | From a reachable state, a step raises in `strptime`, `[-1]` or `int` exactly in two kinds of case. The first is a game whose date cannot be parsed or keyed, as above, stated on the loaded catalog itself. The second is an all-digit answer of more than 4300 digits at a listing or at the download source prompt. |
| Menu.TerminalIsFinal | game_downloader.py:429-432 | After exit or an exception, nothing further happens. |

## Left out

- Loading the catalog (`load_games_data`): the network fetch, the JSON decoding and their error messages are not modelled. The result arrives as an event, a catalog or nothing. Any falsy result counts as nothing.
- JSON values of unexpected types are not modelled. Examples are a `null` where a string or list is expected, and a missing `title` or `downloads` key. A catalog without the top-level `games` key raises `KeyError` when choice 1 or 2 sorts it (game_downloader.py:266) and when choice 3 filters it (game_downloader.py:360, after the query prompt). The model's types rule all of these out.
- `get_game_info` (the store API request) and `open_store_page` (the browser) are not modelled. The first is network I/O. The second appears only as the `OpenBrowser` effect. That effect stands for the whole exchange of `open_in_browser`, including its "Select browser" prompt, so the answer to that prompt is not among a run's events. The size and description shown on screen are not part of the model.
- The screen drawing, `time.sleep` and `console.clear` are not modelled. Creating the `downloads` directory and the file write are left out; the write appears as the `WriteRecord` effect. A title that is not a valid file name is not modelled.
- The prompt library is not modelled. An answer event carries the text `Prompt.ask` returns. A choice prompt asks again until it gets one of its choices; the model shows this as the state staying unchanged. Whitespace handling and defaults inside the library are not modelled.
- Unicode: `lower`, `upper`, `title`, `isdigit`, `int` and `\s`/`\d` are modelled on ASCII. Non-ASCII digits and letters are not. For example, `isdigit` accepts "²", on which `int` raises.
- `urlparse` is modelled as the scheme split and the `//host` part up to the first '/', '?' or '#'. Not modelled: stripping leading control characters and spaces, deleting tab, CR and LF anywhere in the URL, the bracket check of IPv6 hosts, and the `ValueError` raised on some non-ASCII network locations.
- Catalog.VersionInfoOf: the model accepts exactly the canonical 20-character form "YYYY-MM-DDTHH:MM:SSZ" with ASCII digits and treats every other date as raising. `strptime` also accepts other forms: one-digit fields, a space-padded day such as " 1", a lower-case 't' or 'z', and non-ASCII digits. It also rejects out-of-range fields such as month 13 and impossible dates such as February 30, which the model accepts.
- Catalog.LatestFirst: the same restriction holds for its sort keys.
- The `int` digit limit is that of Python 3.11 and later and of the 3.10.7, 3.9.14, 3.8.14 and 3.7.14 security releases. Older interpreters without the limit convert all-digit answers of any length. There the long answers are ordinary out-of-range answers, which the model does not cover.
- rich markup errors are not modelled. rich parses as markup the search term in the two search panels, the titles in the details and download panels, and every string cell of the listing tables. Malformed markup raises `MarkupError`; a closing tag with nothing to close, such as "[/]", is one example. The model treats all drawing as succeeding. The rows below that say when a step raises speak only of `strptime`, `[-1]` and `int`.
- Menu.CrashIff: does not cover `MarkupError` from a title, version or query holding malformed markup.
- Menu.AfterLoadCrashIff: does not cover `MarkupError` from a title or version in the listing's table cells.
- Menu.SearchCrashIff: does not cover `MarkupError` from the query in the results panel, or from a matching title or version in the table.
- Menu.EmptySearchReturnsToMenu: with no match, a query holding malformed markup, such as "[/]", raises in the "No games found" panel instead of returning to the main menu.
- Menu.OpenList: a listing whose title or version cells hold malformed markup raises instead of being shown.
- Menu.EmptyQueryListsAll: the same holds for the listing of the whole catalog.
- Catalog.LatestFirstRenders: states only that `get_version_info` cannot raise. Drawing a row can still raise `MarkupError`.
- Timestamps.ShowMinutes: for a year below 1000, `%Y` zero-pads to four digits in the model. glibc's `strftime` does not pad, and older CPython builds on Linux pass it through, so "0999-01-01T00:00:00Z" may be shown as "999-01-01 00:00".
- Timestamps.ShowMinutesMonotone: on such interpreters the order fails across the year-1000 boundary. A date in year 1000 is shown as "1000-..." and one in year 999 as "999-...", and the first string sorts before the second.
- Catalog.LatestFirstShowsNewestFirst: for the same reason, on such interpreters the shown dates can increase down the listing where it crosses the year 1000.
- Catalog.ShownDateIsSortKey: on such interpreters the shown date for a year below 1000 lacks the leading zeros of the sort key.
- Sizes.ExtractSize: Python's `\d` also matches non-ASCII decimal digits and `re.IGNORECASE` also folds some non-ASCII letters. Only ASCII is modelled.

## Findings

| source | as written | input that shows it | evidently intended | confidence | as-written member | corrected member |
|---|---|---|---|---|---|---|
| game_downloader.py:71 | The unit is "GB" whenever the case-sensitive literal "GB" occurs anywhere in the requirements text, and "MB" otherwise, whatever unit the match itself spelled. | "500 MB available space, 4 GB RAM" reports "500 GB". "20 gb available space" reports "20 MB". | The number with the unit the match spelled: "500 MB" and "20 GB". | not executed | Sizes.ExtractSize, with Sizes.ReportedUnitTakenFromElsewhere and Sizes.GbWithoutCapitalReportedAsMb | Sizes.ExtractSizeMatchedUnit, with Sizes.MatchedUnitAtLeftmost and Sizes.MatchedUnitOfSizeLine |

=== FILE: catalog.dfy ===
/** The game catalog and the views the program derives from it: the version
    summary of `get_version_info`, the A-Z and latest-first orderings of
    `display_game_list` and the title filter of `search_games`. */
module Catalog {
  import opened Wrappers
  import opened Text
  import opened Sorting
  import opened Timestamps

  /** One record of a game's `versions` list; each key may be absent. */
  datatype VersionRecord = VersionRecord(version: Option<string>, date: Option<string>, changes: Option<string>)

  /** One entry of a game's `downloads` list. */
  datatype Link = Link(url: string)

  /** A game of the catalog; `versions` is `None` when the key is absent. */
  datatype Entry = Entry(
    title: string,
    appId: string,
    storeUrl: string,
    downloads: seq<Link>,
    versions: Option<seq<VersionRecord>>)

  /** The loaded `games.json`: its `games` list. */
  datatype Catalog = Catalog(games: seq<Entry>)

  /** The dictionary `get_version_info` returns. */
  datatype VersionInfo = VersionInfo(version: string, date: string, changes: string)

  const NotAvailable: string := "N/A"
  const NoChangeInformation: string := "No change information"
  const NoVersionInformation: string := "No version information available"

  // ---------------------------------------------------------------------
  // get_version_info

  /** `'versions' in game and game['versions']`: a non-empty version list. */
  predicate HasHistory(e: Entry) {
    e.versions.Some? && |e.versions.value| > 0
  }

  function Latest(e: Entry): VersionRecord
    requires HasHistory(e)
  {
    e.versions.value[|e.versions.value| - 1]
  }

  /** The date `get_version_info` parses: the latest record's, or the default. */
  function LatestDate(e: Entry): string
    requires HasHistory(e)
  {
    Latest(e).date.GetOr(DefaultDate)
  }

  /** `get_version_info(game)`; `None` where `strptime` raises because the
      latest record's date is not a canonical timestamp. */
  function VersionInfoOf(e: Entry): (r: Option<VersionInfo>)
    ensures r.None? <==> HasHistory(e) && !IsCanonical(LatestDate(e))
    ensures r.Some? ==> (r.value.date == NotAvailable <==> !HasHistory(e))
  {
    if !HasHistory(e) then
      Some(VersionInfo(NotAvailable, NotAvailable, NoVersionInformation))
    else
      var latest, d := Latest(e), LatestDate(e);
      if IsCanonical(d) then
        Some(VersionInfo(latest.version.GetOr(NotAvailable), ShowMinutes(d), latest.changes.GetOr(NoChangeInformation)))
      else
        None
  }

  /** Only the last record counts: records before it change nothing. */
  lemma VersionInfoUsesLastRecordOnly(e: Entry, earlier: seq<VersionRecord>, last: VersionRecord)
    ensures VersionInfoOf(e.(versions := Some(earlier + [last]))) == VersionInfoOf(e.(versions := Some([last])))
  {
    var vs := earlier + [last];
    assert vs[|vs| - 1] == last;
  }

  /** A game without a version history shows the three placeholders; one
      with a history never shows the "no version information" text. */
  lemma VersionInfoPlaceholders(e: Entry)
    ensures !HasHistory(e) ==> VersionInfoOf(e) == Some(VersionInfo(NotAvailable, NotAvailable, NoVersionInformation))
    ensures HasHistory(e) && VersionInfoOf(e).Some? ==>
      VersionInfoOf(e).value.changes == Latest(e).changes.GetOr(NoChangeInformation)
      && VersionInfoOf(e).value.version == Latest(e).version.GetOr(NotAvailable)
  {
  }

  /** A latest record without a date is shown as updated at the default date. */
  lemma MissingDateShowsDefault(e: Entry)
    requires HasHistory(e) && Latest(e).date.None?
    ensures VersionInfoOf(e).Some? && VersionInfoOf(e).value.date == "2000-01-01 00:00"
  {
    DefaultDateIsCanonical();
    var r := ShowMinutes(DefaultDate);
    assert r == DefaultDate[..10] + " " + DefaultDate[11..16];
  }

  // ---------------------------------------------------------------------
  // display_game_list: the two orderings

  function TitleKey(e: Entry): string {
    e.title
  }

  /** `sorted(games, key=lambda x: x['title'])`. */
  function AToZ(c: Catalog): (r: seq<Entry>)
    ensures multiset(r) == multiset(c.games)
    ensures forall i, j :: 0 <= i < j < |r| ==> StrLe(r[i].title, r[j].title)
    ensures forall t :: WithKey(r, TitleKey, t) == WithKey(c.games, TitleKey, t)
  {
    StableSort(c.games, TitleKey, false)
  }

  /** The date the latest-first ordering sorts by, `None` where computing it
      raises: an empty `versions` list fails at `[-1]`. A missing `versions`
      key or a missing date gives the default date. */
  function RecencyDate(e: Entry): (r: Option<string>)
    ensures r.None? <==> e.versions == Some([])
    ensures HasHistory(e) ==> r == Some(LatestDate(e))
    ensures e.versions.None? ==> r == Some(DefaultDate)
  {
    match e.versions
    case None => Some(DefaultDate)
    case Some(vs) => if vs == [] then None else Some(vs[|vs| - 1].date.GetOr(DefaultDate))
  }

  /** The key `strptime` accepts for this entry. */
  predicate HasRecencyKey(e: Entry) {
    RecencyDate(e).Some? && IsCanonical(RecencyDate(e).value)
  }

  function RecencyKey(e: Entry): string {
    RecencyDate(e).GetOr(DefaultDate)
  }

  /** `sorted(games, key=<latest date>, reverse=True)`; `None` where computing
      some entry's key raises. */
  function LatestFirst(c: Catalog): (r: Option<seq<Entry>>)
    ensures r.Some? <==> forall e :: e in c.games ==> HasRecencyKey(e)
    ensures r.Some? ==> multiset(r.value) == multiset(c.games)
    ensures r.Some? ==> forall i, j :: 0 <= i < j < |r.value| ==> StrLe(RecencyKey(r.value[j]), RecencyKey(r.value[i]))
    ensures r.Some? ==> forall t :: WithKey(r.value, RecencyKey, t) == WithKey(c.games, RecencyKey, t)
  {
    if forall e :: e in c.games ==> HasRecencyKey(e) then Some(StableSort(c.games, RecencyKey, true)) else None
  }

  /** `a` may precede `b` in a latest-first list: both keys parse, and `b`'s
      instant is not later than `a`'s. */
  predicate NotOlder(a: Entry, b: Entry) {
    HasRecencyKey(a) && HasRecencyKey(b) && ChronoLe(RecencyKey(b), RecencyKey(a))
  }

  /** The latest-first list runs from the newest to the oldest instant, as
      the `datetime` keys would order it. */
  lemma LatestFirstIsChronological(c: Catalog, r: seq<Entry>)
    requires LatestFirst(c) == Some(r)
    ensures forall i, j :: 0 <= i < j < |r| ==> NotOlder(r[i], r[j])
  {
    forall i, j | 0 <= i < j < |r|
      ensures NotOlder(r[i], r[j])
    {
      ChronologicalPair(c, r, i, j);
    }
  }

  lemma ChronologicalPair(c: Catalog, r: seq<Entry>, i: nat, j: nat)
    requires LatestFirst(c) == Some(r) && i < j < |r|
    ensures NotOlder(r[i], r[j])
  {
    KeyedMember(c, r, i);
    KeyedMember(c, r, j);
    assert StrLe(RecencyKey(r[j]), RecencyKey(r[i]));
    StrLeIsChronological(RecencyKey(r[j]), RecencyKey(r[i]));
  }

  /** Every entry of the latest-first list has a key. */
  lemma KeyedMember(c: Catalog, r: seq<Entry>, i: nat)
    requires LatestFirst(c) == Some(r) && i < |r|
    ensures HasRecencyKey(r[i])
  {
    assert r[i] in multiset(r);
  }

  /** The date a list row shows is the sort key cut to the minute, for every
      game with a version history. */
  lemma ShownDateIsSortKey(e: Entry)
    requires HasHistory(e) && VersionInfoOf(e).Some?
    ensures HasRecencyKey(e) && VersionInfoOf(e).value.date == ShowMinutes(RecencyKey(e))
  {
  }

  /** Down the latest-first list, the dates shown for games with a version
      history never increase. */
  lemma LatestFirstShowsNewestFirst(c: Catalog, r: seq<Entry>, i: nat, j: nat)
    requires LatestFirst(c) == Some(r) && i < j < |r|
    requires HasHistory(r[i]) && HasHistory(r[j])
    ensures VersionInfoOf(r[i]).Some? && VersionInfoOf(r[j]).Some?
    ensures StrLe(VersionInfoOf(r[j]).value.date, VersionInfoOf(r[i]).value.date)
  {
    KeyedMember(c, r, i);
    KeyedMember(c, r, j);
    RecencyKeyRenders(r[i]);
    RecencyKeyRenders(r[j]);
    ShownDateIsSortKey(r[i]);
    ShownDateIsSortKey(r[j]);
    assert StrLe(RecencyKey(r[j]), RecencyKey(r[i]));
    ShowMinutesMonotone(RecencyKey(r[j]), RecencyKey(r[i]));
  }

  /** Every row of a listing can be drawn: `get_version_info` raises on none
      of its games. */
  predicate Renders(games: seq<Entry>) {
    forall i :: 0 <= i < |games| ==> VersionInfoOf(games[i]).Some?
  }

  /** Whether a listing can be drawn depends only on which games it holds. */
  lemma RendersSameMembers(xs: seq<Entry>, ys: seq<Entry>)
    requires multiset(xs) == multiset(ys)
    ensures Renders(xs) <==> forall e :: e in ys ==> VersionInfoOf(e).Some?
  {
    forall e | e in ys
      ensures e in xs
    {
      assert e in multiset(ys);
    }
    forall i | 0 <= i < |xs|
      ensures xs[i] in ys
    {
      assert xs[i] in multiset(xs);
    }
  }

  /** A game whose sort key parses also has a parseable latest date. */
  lemma RecencyKeyRenders(e: Entry)
    requires HasRecencyKey(e)
    ensures VersionInfoOf(e).Some?
  {
  }

  /** Once the latest-first sort succeeds, drawing its rows cannot fail. */
  lemma LatestFirstRenders(c: Catalog)
    requires LatestFirst(c).Some?
    ensures Renders(LatestFirst(c).value)
  {
    var r := LatestFirst(c).value;
    forall i | 0 <= i < |r|
      ensures VersionInfoOf(r[i]).Some?
    {
      KeyedMember(c, r, i);
      RecencyKeyRenders(r[i]);
    }
  }

  // ---------------------------------------------------------------------
  // search_games: the title filter

  /** `query.lower() in game['title'].lower()` */
  predicate TitleMatches(e: Entry, query: string) {
    Contains(Lower(e.title), Lower(query))
  }

  /** The matching entries, in their order in `games`. */
  function Filter(games: seq<Entry>, query: string): (r: seq<Entry>)
    ensures |r| <= |games|
    ensures forall e :: e in r <==> e in games && TitleMatches(e, query)
  {
    if games == [] then []
    else (if TitleMatches(games[0], query) then [games[0]] else []) + Filter(games[1..], query)
  }

  /** Filtering a concatenation filters each part, so matches keep their
      relative order. */
  lemma {:induction false} FilterAppend(a: seq<Entry>, b: seq<Entry>, query: string)
    ensures Filter(a + b, query) == Filter(a, query) + Filter(b, query)
    decreases |a|
  {
    if a == [] {
      assert a + b == b;
    } else {
      assert (a + b)[0] == a[0];
      assert (a + b)[1..] == a[1..] + b;
      FilterAppend(a[1..], b, query);
      var head := if TitleMatches(a[0], query) then [a[0]] else [];
      var x, y := Filter(a[1..], query), Filter(b, query);
      assert head + (x + y) == (head + x) + y;
    }
  }

  /** The search results for `query`. */
  function Search(c: Catalog, query: string): (r: seq<Entry>)
    ensures forall e :: e in r <==> e in c.games && TitleMatches(e, query)
  {
    Filter(c.games, query)
  }

  /** Every title contains the empty query: it lists the whole catalog. */
  lemma {:induction false} FilterEmptyQuery(games: seq<Entry>)
    ensures Filter(games, "") == games
    decreases |games|
  {
    if games != [] {
      ContainsEmpty(Lower(games[0].title));
      assert Lower("") == "";
      FilterEmptyQuery(games[1..]);
      assert games == [games[0]] + games[1..];
    }
  }

  lemma SearchEmptyQuery(c: Catalog)
    ensures Search(c, "") == c.games
  {
    FilterEmptyQuery(c.games);
  }

  /** The query's letter case does not matter. */
  lemma {:induction false} FilterIgnoresQueryCase(games: seq<Entry>, query: string)
    ensures Filter(games, Upper(query)) == Filter(games, query)
    decreases |games|
  {
    LowerOfUpper(query);
    if games != [] {
      FilterIgnoresQueryCase(games[1..], query);
    }
  }

  lemma SearchIgnoresQueryCase(c: Catalog, query: string)
    ensures Search(c, Upper(query)) == Search(c, query)
  {
    FilterIgnoresQueryCase(c.games, query);
  }
}

=== FILE: menu.dfy ===
/** The program's menus as a state machine: `main_menu`, `display_game_list`,
    `search_games`, `display_game_details` and the link prompt of
    `download_game`. Each prompt answer and each result of `load_games_data`
    is an event; opening a browser and writing a download record are the
    effects a step produces. A Python exception that ends the program is the
    `Crashed` state. */
module Menu {
  import opened Wrappers
  import opened Text
  import opened Catalog

  // ---------------------------------------------------------------------
  // Reading the answers

  /** `answer.isdigit() and 1 <= int(answer) <= n`, as the 0-based index of
      the row the answer selects. */
  function ParseSelection(answer: string, n: nat): (r: Option<nat>)
    ensures r.Some? <==> IsDecimal(answer) && 1 <= DecimalValue(answer) <= n
    ensures r.Some? ==> r.value < n && r.value + 1 == DecimalValue(answer)
  {
    if IsDecimal(answer) && 1 <= DecimalValue(answer) <= n then Some(DecimalValue(answer) - 1) else None
  }

  /** The answer passes `isdigit()`, so `int(answer)` is evaluated, and
      `int` raises on it: the numeral has too many digits. */
  predicate SelectionRaises(answer: string) {
    IsDecimal(answer) && IntRaises(answer)
  }

  /** Typing the row number printed in the `#` column selects that row. */
  lemma ParseSelectionOfRowNumber(k: nat, n: nat)
    requires k < n
    ensures ParseSelection(ShowNat(k + 1), n) == Some(k)
  {
    ShowNatRoundTrip(k + 1);
  }

  /** The choices of the main menu and of the game details prompt. */
  predicate IsMenuChoice(answer: string) {
    answer == "1" || answer == "2" || answer == "3" || answer == "4"
  }

  // ---------------------------------------------------------------------
  // States, events and effects

  /** A listing on screen: the whole catalog (A-Z, or latest first when
      `byDate`) or the results of a search. */
  datatype View =
    | AllGames(byDate: bool, items: seq<Entry>)
    | SearchResults(query: string, items: seq<Entry>)

  datatype State =
    | MainMenu
      /** A main menu choice was made; `load_games_data` runs next. */
    | Loading(choice: string)
    | AwaitingQuery(catalog: Catalog)
    | Browsing(view: View)
    | Details(game: Entry, view: View)
      /** The download source prompt of `download_game`. */
    | ChoosingLink(game: Entry, view: View)
    | Exited
    | Crashed

  /** An answer to the current prompt, or what `load_games_data` returned
      (`None` where it printed an error and returned nothing). */
  datatype Event =
    | Answer(text: string)
    | CatalogLoaded(data: Option<Catalog>)

  datatype Effect =
    | OpenBrowser(url: string)
      /** The game written to `downloads/<title>.game`. */
    | WriteRecord(game: Entry)

  datatype Transition = Transition(next: State, effects: seq<Effect>)

  predicate IsTerminal(s: State) {
    s.Exited? || s.Crashed?
  }

  /** The event the state waits for: a loaded catalog while loading, an
      answer otherwise; terminal states wait for nothing. */
  predicate Expects(s: State, ev: Event) {
    !IsTerminal(s) && (s.Loading? <==> ev.CatalogLoaded?)
  }

  // ---------------------------------------------------------------------
  // The steps

  /** Draws a listing: a search without matches goes back to the main menu
      without a prompt, and a row whose version date does not parse ends
      the program. */
  function OpenList(v: View): (r: State)
    ensures r.Browsing? ==> r.view == v && ViewShown(v)
    ensures r.Browsing? || r == MainMenu || r == Crashed
    ensures !(v.SearchResults? && v.items == []) && Renders(v.items) ==> r == Browsing(v)
  {
    if v.SearchResults? && v.items == [] then MainMenu
    else if Renders(v.items) then Browsing(v)
    else Crashed
  }

  /** After a successful load, the main menu choice is carried out: a
      listing of the whole catalog, the search prompt or the exit. */
  function AfterLoad(choice: string, c: Catalog): (r: State)
    ensures r == Exited <==> choice == "4"
    ensures r.AwaitingQuery? <==> choice == "3"
    ensures r.AwaitingQuery? ==> r.catalog == c
    ensures r.Browsing? ==> r.view.AllGames? && (r.view.byDate <==> choice == "2")
    ensures r.Browsing? ==> multiset(r.view.items) == multiset(c.games)
    ensures r == Crashed ==> choice == "1" || choice == "2"
    ensures !IsMenuChoice(choice) ==> r == MainMenu
    ensures choice == "1" || choice == "2" ==> r.Browsing? || r == Crashed
    ensures r.Browsing? && choice == "1" ==> r.view.items == AToZ(c)
    ensures r.Browsing? && choice == "2" ==> LatestFirst(c) == Some(r.view.items)
  {
    if choice == "1" then OpenList(AllGames(false, AToZ(c)))
    else if choice == "2" then
      match LatestFirst(c)
      case None => Crashed
      case Some(games) => OpenList(AllGames(true, games))
    else if choice == "3" then AwaitingQuery(c)
    else if choice == "4" then Exited
    else MainMenu
  }

  /** The listing prompt: "B" in either case goes back, a row number opens
      that game, a numeral too long for `int` ends the program, anything
      else redraws the listing. */
  function ListChoice(v: View, answer: string): (r: State)
    ensures r == MainMenu <==> answer == "b" || answer == "B"
    ensures r == Crashed <==> SelectionRaises(answer)
    ensures r.Details? <==> !SelectionRaises(answer) && ParseSelection(answer, |v.items|).Some?
    ensures r.Details? ==> r.view == v && r.game == v.items[ParseSelection(answer, |v.items|).value]
    ensures r.Browsing? ==> r.view == v
    ensures r.Browsing? || r.Details? || r == MainMenu || r == Crashed
  {
    UpperIsB(answer);
    UpperKeepsDecimal(answer);
    var a := Upper(answer);
    if a == "B" then MainMenu
    else if SelectionRaises(a) then Crashed
    else match ParseSelection(a, |v.items|)
      case Some(k) => Details(v.items[k], v)
      case None => Browsing(v)
  }

  /** `int()` ignores leading zeros, so "01" selects the first row, except
      where the added zero takes the numeral past the digit limit and `int`
      raises. */
  lemma LeadingZeroSelectsSameRow(answer: string, v: View)
    requires IsDecimal(answer)
    ensures ParseSelection("0" + answer, |v.items|) == ParseSelection(answer, |v.items|)
    ensures ListChoice(v, "0" + answer) == Crashed <==> |answer| >= MaxStrDigits
    ensures |answer| < MaxStrDigits ==> ListChoice(v, "0" + answer) == ListChoice(v, answer)
  {
    DecimalLeadingZero(answer);
    assert IsDecimal("0" + answer) by {
      assert forall i :: 0 <= i < |"0" + answer| ==> IsDigit(("0" + answer)[i]);
    }
    UpperIsB(answer);
    UpperIsB("0" + answer);
  }

  /** The details prompt: "1" opens the store page, "2" the download source
      prompt when the game has links, "3" goes back to the listing and "4"
      to the main menu. */
  function DetailChoice(g: Entry, v: View, answer: string): (t: Transition)
    ensures t.next.ChoosingLink? <==> answer == "2" && g.downloads != []
    ensures t.effects != [] <==> answer == "1"
    ensures t.effects == [] || t.effects == [OpenBrowser(g.storeUrl)]
    ensures t.next in {Details(g, v), ChoosingLink(g, v), Browsing(v), MainMenu}
    ensures answer == "3" ==> t.next == Browsing(v)
    ensures answer == "4" ==> t.next == MainMenu
  {
    if answer == "1" then Transition(Details(g, v), [OpenBrowser(g.storeUrl)])
    else if answer == "2" then
      if g.downloads == [] then Transition(Details(g, v), [])
      else Transition(ChoosingLink(g, v), [])
    else if answer == "3" then Transition(Browsing(v), [])
    else if answer == "4" then Transition(MainMenu, [])
    else Transition(Details(g, v), [])
  }

  /** The download source prompt, for an answer on which `int` does not
      raise: a valid number opens that link, and the record of the game is
      written last. */
  function LinkEffects(g: Entry, answer: string): (r: seq<Effect>)
    requires !SelectionRaises(answer)
    ensures 0 < |r| <= 2 && r[|r| - 1] == WriteRecord(g)
    ensures |r| == 2 <==> ParseSelection(answer, |g.downloads|).Some?
    ensures |r| == 2 ==> r[0] == OpenBrowser(g.downloads[ParseSelection(answer, |g.downloads|).value].url)
  {
    match ParseSelection(answer, |g.downloads|)
    case Some(k) => [OpenBrowser(g.downloads[k].url), WriteRecord(g)]
    case None => [WriteRecord(g)]
  }

  function Step(s: State, ev: Event): (t: Transition)
    ensures IsTerminal(s) ==> t == Transition(s, [])
    ensures !Expects(s, ev) ==> t == Transition(s, [])
    ensures t.effects != [] ==> ev.Answer? && (s.Details? || s.ChoosingLink?)
    ensures |t.effects| <= 2
  {
    if !Expects(s, ev) then Transition(s, [])
    else match s
      case MainMenu =>
        if IsMenuChoice(ev.text) then Transition(Loading(ev.text), []) else Transition(MainMenu, [])
      case Loading(choice) =>
        (match ev.data
         case None => Transition(MainMenu, [])
         case Some(c) => Transition(AfterLoad(choice, c), []))
      case AwaitingQuery(c) => Transition(OpenList(SearchResults(ev.text, Search(c, ev.text))), [])
      case Browsing(v) => Transition(ListChoice(v, ev.text), [])
      case Details(g, v) => DetailChoice(g, v, ev.text)
      case ChoosingLink(g, v) =>
        if SelectionRaises(ev.text) then Transition(Crashed, [])
        else Transition(Details(g, v), LinkEffects(g, ev.text))
  }

  datatype Outcome = Outcome(final: State, effects: seq<Effect>)

  /** The state after a sequence of events, and every effect on the way. */
  function Run(s: State, evs: seq<Event>): (o: Outcome)
    ensures evs == [] ==> o == Outcome(s, [])
    ensures IsTerminal(s) ==> o == Outcome(s, [])
    ensures |o.effects| <= 2 * |evs|
    decreases |evs|
  {
    if evs == [] then Outcome(s, [])
    else
      var t := Step(s, evs[0]);
      var o := Run(t.next, evs[1..]);
      Outcome(o.final, t.effects + o.effects)
  }

  // ---------------------------------------------------------------------
  // The invariant of reachable states

  predicate ViewShown(v: View) {
    Renders(v.items) && (v.SearchResults? ==> v.items != [])
  }

  /** What holds of every state the program reaches from the main menu. */
  predicate Valid(s: State) {
    match s
    case Loading(choice) => IsMenuChoice(choice)
    case Browsing(v) => ViewShown(v)
    case Details(g, v) => ViewShown(v) && g in v.items
    case ChoosingLink(g, v) => ViewShown(v) && g in v.items && g.downloads != []
    case _ => true
  }

  lemma StepKeepsValid(s: State, ev: Event)
    requires Valid(s)
    ensures Valid(Step(s, ev).next)
  {
  }

  lemma {:induction false} RunKeepsValid(s: State, evs: seq<Event>)
    requires Valid(s)
    ensures Valid(Run(s, evs).final)
    decreases |evs|
  {
    if evs != [] {
      StepKeepsValid(s, evs[0]);
      RunKeepsValid(Step(s, evs[0]).next, evs[1..]);
    }
  }

  // ---------------------------------------------------------------------
  // Properties of single steps

  /** The program ends only by choosing "4" and then loading the catalog. */
  lemma ExitOnlyAfterLoad(s: State, ev: Event)
    ensures Step(s, ev).next == Exited <==>
      s == Exited || (s == Loading("4") && ev.CatalogLoaded? && ev.data.Some?)
  {
  }

  /** A failed load goes back to the main menu, whatever was chosen. */
  lemma FailedLoadReturnsToMenu(choice: string)
    ensures Step(Loading(choice), CatalogLoaded(None)) == Transition(MainMenu, [])
  {
  }

  /** A record is written exactly when the download source prompt gets an
      answer on which `int` does not raise, and it is the record of the game
      on screen. */
  lemma WriteRecordIff(s: State, ev: Event, g: Entry)
    ensures WriteRecord(g) in Step(s, ev).effects <==>
      s.ChoosingLink? && ev.Answer? && !SelectionRaises(ev.text) && g == s.game
  {
  }

  /** A browser opens on the store page when the details prompt gets "1",
      and on a download link when the source prompt gets that link's number. */
  lemma OpenBrowserIff(s: State, ev: Event, url: string)
    ensures OpenBrowser(url) in Step(s, ev).effects <==>
      (s.Details? && ev == Answer("1") && url == s.game.storeUrl)
      || (s.ChoosingLink? && ev.Answer? && !SelectionRaises(ev.text)
          && ParseSelection(ev.text, |s.game.downloads|).Some?
          && url == s.game.downloads[ParseSelection(ev.text, |s.game.downloads|).value].url)
  {
  }

  /** In a listing, the row number shown in the `#` column opens that game. */
  lemma SelectRow(v: View, k: nat)
    requires k < |v.items| && !IntRaises(ShowNat(k + 1))
    ensures Step(Browsing(v), Answer(ShowNat(k + 1))) == Transition(Details(v.items[k], v), [])
  {
    UpperOfDecimal(ShowNat(k + 1));
    ParseSelectionOfRowNumber(k, |v.items|);
  }

  /** A listing goes back to the main menu exactly on "b" or "B". */
  lemma BackIff(v: View, answer: string)
    ensures Step(Browsing(v), Answer(answer)).next == MainMenu <==> answer == "b" || answer == "B"
  {
    UpperIsB(answer);
  }

  /** The details prompt: "3" goes back to the listing it came from, "4" to
      the main menu, "2" opens the download source prompt or, without links,
      stays put, and any other answer is asked again. */
  lemma DetailChoices(g: Entry, v: View, answer: string)
    ensures answer == "3" ==> Step(Details(g, v), Answer(answer)) == Transition(Browsing(v), [])
    ensures answer == "4" ==> Step(Details(g, v), Answer(answer)) == Transition(MainMenu, [])
    ensures answer == "2" && g.downloads == [] ==> Step(Details(g, v), Answer(answer)) == Transition(Details(g, v), [])
    ensures answer == "2" && g.downloads != [] ==> Step(Details(g, v), Answer(answer)) == Transition(ChoosingLink(g, v), [])
    ensures !IsMenuChoice(answer) ==> Step(Details(g, v), Answer(answer)) == Transition(Details(g, v), [])
  {
  }

  /** A search with no match goes straight back to the main menu. */
  lemma EmptySearchReturnsToMenu(c: Catalog, query: string)
    ensures Step(AwaitingQuery(c), Answer(query)).next == MainMenu <==> Search(c, query) == []
  {
  }

  /** The empty search term lists the whole catalog in its stored order. */
  lemma EmptyQueryListsAll(c: Catalog)
    requires c.games != [] && Renders(c.games)
    ensures Step(AwaitingQuery(c), Answer("")).next == Browsing(SearchResults("", c.games))
  {
    SearchEmptyQuery(c);
  }

  /** Carrying out a main menu choice raises exactly when a game of the
      catalog cannot be drawn in the A-Z listing, or, for the latest-first
      listing, when a game's sort key cannot be computed. */
  lemma AfterLoadCrashIff(choice: string, c: Catalog)
    ensures AfterLoad(choice, c) == Crashed <==>
      (choice == "1" && exists e :: e in c.games && VersionInfoOf(e).None?)
      || (choice == "2" && exists e :: e in c.games && !HasRecencyKey(e))
  {
    if choice == "1" {
      RendersSameMembers(AToZ(c), c.games);
    } else if choice == "2" && LatestFirst(c).Some? {
      LatestFirstRenders(c);
    }
  }

  /** A search raises exactly when a matching game cannot be drawn. */
  lemma SearchCrashIff(c: Catalog, query: string)
    ensures OpenList(SearchResults(query, Search(c, query))) == Crashed <==>
      exists e :: e in c.games && TitleMatches(e, query) && VersionInfoOf(e).None?
  {
    var r := Search(c, query);
    RendersSameMembers(r, r);
  }

  /** Which steps end the program with an exception: a game whose date
      does not parse, stated on the catalog itself rather than on the
      listings drawn from it, or a numeral too long for `int` at a listing
      or at the download source prompt. */
  lemma CrashIff(s: State, ev: Event)
    requires Valid(s) && !s.Crashed?
    ensures Step(s, ev).next == Crashed <==>
      Expects(s, ev)
      && ((s.Loading? && ev.data.Some? && s.choice == "1"
           && exists e :: e in ev.data.value.games && VersionInfoOf(e).None?)
       || (s.Loading? && ev.data.Some? && s.choice == "2"
           && exists e :: e in ev.data.value.games && !HasRecencyKey(e))
       || (s.AwaitingQuery? && exists e :: e in s.catalog.games && TitleMatches(e, ev.text) && VersionInfoOf(e).None?)
       || ((s.Browsing? || s.ChoosingLink?) && SelectionRaises(ev.text)))
  {
    if Expects(s, ev) {
      match s
      case Loading(choice) =>
        if ev.data.Some? {
          AfterLoadCrashIff(choice, ev.data.value);
        }
      case AwaitingQuery(c) =>
        SearchCrashIff(c, ev.text);
      case _ =>
    }
  }

  // ---------------------------------------------------------------------
  // Properties of runs

  /** Nothing leaves a terminal state. */
  lemma {:induction false} TerminalIsFinal(s: State, evs: seq<Event>)
    requires IsTerminal(s)
    ensures Run(s, evs) == Outcome(s, [])
    decreases |evs|
  {
    if evs != [] {
      TerminalIsFinal(s, evs[1..]);
    }
  }

  /** Without a successful load the program never ends normally. */
  lemma {:induction false} NoExitWithoutCatalog(s: State, evs: seq<Event>)
    requires s != Exited
    requires forall i :: 0 <= i < |evs| ==> evs[i] != CatalogLoaded(None) ==> evs[i].Answer?
    ensures Run(s, evs).final != Exited
    decreases |evs|
  {
    if evs != [] {
      ExitOnlyAfterLoad(s, evs[0]);
      NoExitWithoutCatalog(Step(s, evs[0]).next, evs[1..]);
    }
  }

  /** Every record written on the way is of a game that has download links. */
  lemma {:induction false} RecordsHaveLinks(s: State, evs: seq<Event>)
    requires Valid(s)
    ensures forall g :: WriteRecord(g) in Run(s, evs).effects ==> g.downloads != []
    decreases |evs|
  {
    if evs != [] {
      var t := Step(s, evs[0]);
      StepKeepsValid(s, evs[0]);
      RecordsHaveLinks(t.next, evs[1..]);
      forall g | WriteRecord(g) in t.effects
        ensures g.downloads != []
      {
        WriteRecordIff(s, evs[0], g);
      }
    }
  }
}

=== FILE: sizes.dfy ===
/** `extract_size_from_requirements`: a leftmost, case-insensitive search for
    `(\d+(?:\.\d+)?)\s*(?:GB|MB) (?:available )?space` in a requirements text.
    `MatchSplit` says declaratively where the pattern matches; `MatchAt` and
    `FindFrom` are the scanner, proved to find exactly the leftmost match. */
module Sizes {
  import opened Wrappers
  import opened Text

  const UnknownSize: string := "Unknown size"

  /** `\s` on ASCII characters: space, tab, line feed, vertical tab, form feed,
      carriage return and the separators U+001C to U+001F. */
  predicate IsSpace(c: char) {
    c == ' ' || ('\t' <= c <= '\r') || ('\U{1C}' <= c <= '\U{1F}')
  }

  /** `s[a..b]` is a non-empty run of digits (`\d+`). */
  predicate DigitsIn(s: string, a: nat, b: nat) {
    a < b <= |s| && forall k :: a <= k < b ==> IsDigit(s[k])
  }

  /** `s[a..b]` is whitespace only (`\s*`). */
  predicate SpacesIn(s: string, a: nat, b: nat) {
    a <= b <= |s| && forall k :: a <= k < b ==> IsSpace(s[k])
  }

  /** `s[i..i + n]` is digits, a dot at offset `d`, and digits. */
  predicate PointAt(s: string, i: nat, d: nat, n: nat) {
    0 < d && d + 1 < n && i + n <= |s| && s[i + d] == '.'
    && DigitsIn(s, i, i + d) && DigitsIn(s, i + d + 1, i + n)
  }

  /** `\d+(?:\.\d+)?` matches exactly `s[i..i + n]`. */
  predicate NumberAt(s: string, i: nat, n: nat) {
    DigitsIn(s, i, i + n) || exists d: nat :: d < n && PointAt(s, i, d, n)
  }

  /** The lower-case literal `lit` occurs at `j`, ignoring ASCII case. */
  predicate CaselessAt(s: string, j: nat, lit: string) {
    j + |lit| <= |s| && forall k :: 0 <= k < |lit| ==> LowerChar(s[j + k]) == lit[k]
  }

  /** `(?:GB|MB) (?:available )?space` matches at `j`, ignoring case. */
  predicate UnitTailAt(s: string, j: nat) {
    (CaselessAt(s, j, "gb ") || CaselessAt(s, j, "mb "))
    && (CaselessAt(s, j + 3, "space") || CaselessAt(s, j + 3, "available space"))
  }

  /** The whole pattern matches at `i`: a number of length `n`, then `w`
      whitespace characters, then the unit and the word "space". */
  predicate MatchSplit(s: string, i: nat, n: nat, w: nat) {
    NumberAt(s, i, n) && SpacesIn(s, i + n, i + n + w) && UnitTailAt(s, i + n + w)
  }

  ghost predicate MatchesAt(s: string, i: nat) {
    exists n: nat, w: nat :: MatchSplit(s, i, n, w)
  }

  /** `re.search` reports the match at `i`: the leftmost index where the
      pattern matches. */
  ghost predicate IsLeftmost(s: string, i: nat) {
    MatchesAt(s, i) && forall k: nat :: k < i ==> !MatchesAt(s, k)
  }

  // ---------------------------------------------------------------------
  // The scanner

  function DigitsEnd(s: string, j: nat): (e: nat)
    requires j <= |s|
    ensures j <= e <= |s|
    ensures forall k :: j <= k < e ==> IsDigit(s[k])
    ensures e < |s| ==> !IsDigit(s[e])
    decreases |s| - j
  {
    if j < |s| && IsDigit(s[j]) then DigitsEnd(s, j + 1) else j
  }

  function SpacesEnd(s: string, j: nat): (e: nat)
    requires j <= |s|
    ensures j <= e <= |s|
    ensures forall k :: j <= k < e ==> IsSpace(s[k])
    ensures e < |s| ==> !IsSpace(s[e])
    decreases |s| - j
  {
    if j < |s| && IsSpace(s[j]) then SpacesEnd(s, j + 1) else j
  }

  lemma DigitsEndIs(s: string, j: nat, e: nat)
    requires j <= e <= |s|
    requires forall k :: j <= k < e ==> IsDigit(s[k])
    requires e < |s| ==> !IsDigit(s[e])
    ensures DigitsEnd(s, j) == e
  {
  }

  lemma SpacesEndIs(s: string, j: nat, e: nat)
    requires SpacesIn(s, j, e)
    requires e < |s| ==> !IsSpace(s[e])
    ensures SpacesEnd(s, j) == e
  {
  }

  /** The end of the greedy `\d+(?:\.\d+)?` starting at `i`. */
  function NumberEnd(s: string, i: nat): (e: nat)
    requires i < |s| && IsDigit(s[i])
    ensures i < e <= |s| && NumberAt(s, i, e - i)
  {
    var d := DigitsEnd(s, i);
    if d + 1 < |s| && s[d] == '.' && IsDigit(s[d + 1]) then
      var e := DigitsEnd(s, d + 1);
      assert PointAt(s, i, d - i, e - i);
      e
    else
      assert DigitsIn(s, i, i + (d - i));
      d
  }

  /** The first character of the unit is neither a digit, nor whitespace, nor a dot. */
  lemma UnitTailStart(s: string, j: nat)
    requires UnitTailAt(s, j)
    ensures j + 3 <= |s| && !IsDigit(s[j]) && !IsSpace(s[j]) && s[j] != '.'
  {
    assert "gb "[0] == 'g' && "mb "[0] == 'm';
  }

  /** The greedy scanner reads back any number token followed by a character
      that neither extends it nor starts its fraction. */
  lemma NumberEndIs(s: string, i: nat, n: nat)
    requires i + n < |s| && NumberAt(s, i, n)
    requires !IsDigit(s[i + n]) && s[i + n] != '.'
    ensures IsDigit(s[i]) && NumberEnd(s, i) == i + n
  {
    if DigitsIn(s, i, i + n) {
      DigitsEndIs(s, i, i + n);
    } else {
      var d: nat :| d < n && PointAt(s, i, d, n);
      DigitsEndIs(s, i, i + d);
      DigitsEndIs(s, i + d + 1, i + n);
    }
  }

  /** Any split the pattern admits at `i` is the one the greedy scanner finds. */
  lemma MatchSplitForced(s: string, i: nat, n: nat, w: nat)
    requires MatchSplit(s, i, n, w)
    ensures i < |s| && IsDigit(s[i]) && NumberEnd(s, i) == i + n && SpacesEnd(s, i + n) == i + n + w
  {
    var p := i + n;
    var u := p + w;
    UnitTailStart(s, u);
    SpacesEndIs(s, p, u);
    assert !IsDigit(s[p]) && s[p] != '.';
    NumberEndIs(s, i, n);
  }

  /** Where the pattern matches at `i`, the end of its number; `None` where it
      does not match. */
  function MatchAt(s: string, i: nat): (r: Option<nat>)
    requires i <= |s|
    ensures r.Some? ==> i < r.value <= |s|
    ensures r.Some? ==> MatchSplit(s, i, r.value - i, SpacesEnd(s, r.value) - r.value)
    ensures r.Some? ==> IsDigit(s[i]) && SpacesEnd(s, r.value) + 3 <= |s|
  {
    if i < |s| && IsDigit(s[i]) then
      var e := NumberEnd(s, i);
      if UnitTailAt(s, SpacesEnd(s, e)) then Some(e) else None
    else
      None
  }

  /** The scanner finds every split the pattern admits. */
  lemma MatchAtComplete(s: string, i: nat, n: nat, w: nat)
    requires i <= |s| && MatchSplit(s, i, n, w)
    ensures MatchAt(s, i) == Some(i + n)
    ensures SpacesEnd(s, i + n) == i + n + w
  {
    MatchSplitForced(s, i, n, w);
  }

  /** The scanner's verdict at `i` is exactly whether the pattern matches there. */
  lemma MatchAtDecides(s: string, i: nat)
    requires i <= |s|
    ensures MatchAt(s, i).Some? <==> MatchesAt(s, i)
  {
    var r := MatchAt(s, i);
    if r.Some? {
      assert MatchSplit(s, i, r.value - i, SpacesEnd(s, r.value) - r.value);
    } else {
      forall n: nat, w: nat
        ensures !MatchSplit(s, i, n, w)
      {
        if MatchSplit(s, i, n, w) {
          MatchAtComplete(s, i, n, w);
        }
      }
    }
  }

  /** No match can start at or beyond the end of the text. */
  lemma NoMatchBeyond(s: string, i: nat)
    requires i >= |s|
    ensures forall k: nat :: i <= k ==> !MatchesAt(s, k)
  {
  }

  /** The leftmost match at or after `i`, as (start, end of number). */
  function FindFrom(s: string, i: nat): (r: Option<(nat, nat)>)
    requires i <= |s|
    ensures r.Some? ==> i <= r.value.0 <= |s| && MatchAt(s, r.value.0) == Some(r.value.1)
    ensures r.Some? ==> forall k: nat :: i <= k < r.value.0 ==> !MatchesAt(s, k)
    ensures r.None? ==> forall k: nat :: i <= k ==> !MatchesAt(s, k)
    decreases |s| - i
  {
    MatchAtDecides(s, i);
    match MatchAt(s, i)
    case Some(e) => Some((i, e))
    case None =>
      if i == |s| then
        NoMatchBeyond(s, i);
        None
      else
        FindFrom(s, i + 1)
  }

  /** The search from the start reports nothing exactly when the pattern
      matches nowhere. */
  lemma SearchFailsIffNoMatch(s: string)
    ensures FindFrom(s, 0).None? <==> forall i: nat :: !MatchesAt(s, i)
  {
    var r := FindFrom(s, 0);
    if r.Some? {
      MatchAtDecides(s, r.value.0);
    }
  }

  /** The search from the start reports the leftmost match, with the number
      and the whitespace run the pattern assigns it. */
  lemma SearchFindsLeftmost(s: string, i: nat, n: nat, w: nat)
    requires IsLeftmost(s, i) && MatchSplit(s, i, n, w)
    ensures FindFrom(s, 0) == Some((i, i + n)) && SpacesEnd(s, i + n) == i + n + w
  {
    assert i <= |s| by { NoMatchBeyond(s, |s| + 1); }
    MatchAtComplete(s, i, n, w);
    var r := FindFrom(s, 0);
    assert r.Some? by { assert MatchesAt(s, i); }
    var j := r.value.0;
    MatchAtDecides(s, j);
    assert MatchesAt(s, j);
    assert j == i;
  }

  /** The unit the program reports: "GB" whenever the literal, case-sensitive
      "GB" occurs anywhere in the text, "MB" otherwise. */
  function ReportedUnit(text: string): (r: string)
    ensures r == "GB" || r == "MB"
  {
    if Contains(text, "GB") then "GB" else "MB"
  }

  /** The unit is "GB" exactly when "GB" starts at some index of the text. */
  lemma ReportedUnitIff(text: string)
    ensures ReportedUnit(text) == "GB" <==> exists k :: OccursAt(text, "GB", k)
  {
    ContainsIff(text, "GB");
  }

  /** `extract_size_from_requirements(text)`, with an absent text as `None`. */
  function ExtractSize(text: Option<string>): (r: string)
    ensures r == UnknownSize <==> text.None? || forall i: nat :: !MatchesAt(text.value, i)
  {
    if text.None? then UnknownSize
    else
      var s := text.value;
      SearchFailsIffNoMatch(s);
      match FindFrom(s, 0)
      case None => UnknownSize
      case Some((i, e)) =>
        var r := s[i..e] + " " + ReportedUnit(s);
        assert r[0] == s[i];
        r
  }

  /** At the leftmost match, the reported size is the matched number followed
      by the unit `ReportedUnit` picks. */
  lemma ExtractSizeAtLeftmost(s: string, i: nat, n: nat, w: nat)
    requires IsLeftmost(s, i) && MatchSplit(s, i, n, w)
    ensures ExtractSize(Some(s)) == s[i..i + n] + " " + ReportedUnit(s)
  {
    SearchFindsLeftmost(s, i, n, w);
    ExtractSizeOfFound(s, i, i + n);
  }

  lemma ExtractSizeOfFound(s: string, i: nat, e: nat)
    requires FindFrom(s, 0) == Some((i, e))
    ensures ExtractSize(Some(s)) == s[i..e] + " " + ReportedUnit(s)
  {
    assert MatchAt(s, i) == Some(e);
  }

  /** A unit spelled "GB" or "MB" in any mix of cases. */
  predicate IsUnitWord(unit: string) {
    |unit| == 2 && LowerChar(unit[1]) == 'b' && (LowerChar(unit[0]) == 'g' || LowerChar(unit[0]) == 'm')
  }

  /** A requirements text opening with "<digits> <unit> available space". */
  function SizeLine(digits: string, unit: string, rest: string): string {
    digits + " " + unit + " available space" + rest
  }

  /** Where each part of such a text sits. */
  lemma SizeLineLayout(digits: string, unit: string, rest: string)
    requires |unit| == 2
    ensures var s := SizeLine(digits, unit, rest); var n := |digits|;
      |s| == n + 19 + |rest| && s[..n] == digits && s[n] == ' '
      && s[n + 1..n + 3] == unit && s[n + 3] == ' ' && s[n + 4..n + 19] == "available space"
  {
    var s := SizeLine(digits, unit, rest);
    var n := |digits|;
    assert s == digits + ([' '] + unit + [' '] + "available space" + rest);
  }

  /** Lower-casing leaves "available space" as it is. */
  lemma AvailableSpaceIsLower()
    ensures forall k :: 0 <= k < 15 ==> LowerChar("available space"[k]) == "available space"[k]
  {
  }

  /** Such a text matches at its very start, with the number `digits` and the
      unit `unit`. */
  lemma LeadingSizeMatches(digits: string, unit: string, rest: string)
    requires IsDecimal(digits) && IsUnitWord(unit)
    ensures var s := SizeLine(digits, unit, rest);
      MatchSplit(s, 0, |digits|, 1) && IsLeftmost(s, 0)
      && s[..|digits|] == digits && s[|digits| + 1..|digits| + 3] == unit
  {
    var s := SizeLine(digits, unit, rest);
    var n := |digits|;
    SizeLineLayout(digits, unit, rest);
    assert DigitsIn(s, 0, n) by {
      assert forall k :: 0 <= k < n ==> s[k] == s[..n][k];
    }
    assert SpacesIn(s, n, n + 1);
    assert s[n + 1] == unit[0] && s[n + 2] == unit[1];
    assert CaselessAt(s, n + 1, [LowerChar(unit[0])] + "b ");
    assert CaselessAt(s, n + 4, "available space") by {
      AvailableSpaceIsLower();
      var t := s[n + 4..n + 19];
      assert forall k :: 0 <= k < 15 ==> s[n + 4 + k] == t[k];
    }
    assert MatchSplit(s, 0, n, 1);
    assert MatchesAt(s, 0);
  }

  /** Such a text reports `digits` with the unit `ReportedUnit` picks. */
  lemma ExtractSizeOfSizeLine(digits: string, unit: string, rest: string)
    requires IsDecimal(digits) && IsUnitWord(unit)
    ensures ExtractSize(Some(SizeLine(digits, unit, rest))) == digits + " " + ReportedUnit(SizeLine(digits, unit, rest))
  {
    LeadingSizeMatches(digits, unit, rest);
    ExtractSizeAtLeftmost(SizeLine(digits, unit, rest), 0, |digits|, 1);
  }

  /** Such a text spelling its unit "GB" reports gigabytes. */
  lemma ExtractSizeOfGbAvailableSpace(digits: string, unit: string, rest: string)
    requires IsDecimal(digits) && unit == "GB"
    ensures ExtractSize(Some(SizeLine(digits, unit, rest))) == digits + " " + unit
  {
    var s := SizeLine(digits, unit, rest);
    ExtractSizeOfSizeLine(digits, unit, rest);
    LeadingSizeMatches(digits, unit, rest);
    assert OccursAt(s, unit, |digits| + 1);
    ContainsAt(s, "GB", |digits| + 1);
  }

  // ---------------------------------------------------------------------
  // The unit as matched

  /** The size with the unit the match itself spelled, upper-cased: what the
      comment on the search ("XX GB available space") describes. */
  function ExtractSizeMatchedUnit(text: Option<string>): (r: string)
    ensures r == UnknownSize <==> text.None? || forall i: nat :: !MatchesAt(text.value, i)
  {
    if text.None? then UnknownSize
    else
      var s := text.value;
      SearchFailsIffNoMatch(s);
      match FindFrom(s, 0)
      case None => UnknownSize
      case Some((i, e)) =>
        var u := SpacesEnd(s, e);
        var r := s[i..e] + " " + Upper(s[u..u + 2]);
        assert r[0] == s[i];
        r
  }

  /** At the leftmost match, the corrected size is the matched number followed
      by the matched unit, upper-cased. */
  lemma MatchedUnitAtLeftmost(s: string, i: nat, n: nat, w: nat)
    requires IsLeftmost(s, i) && MatchSplit(s, i, n, w)
    ensures ExtractSizeMatchedUnit(Some(s)) == s[i..i + n] + " " + Upper(s[i + n + w..i + n + w + 2])
  {
    SearchFindsLeftmost(s, i, n, w);
    MatchedUnitOfFound(s, i, i + n, i + n + w);
  }

  lemma MatchedUnitOfFound(s: string, i: nat, e: nat, u: nat)
    requires FindFrom(s, 0) == Some((i, e)) && SpacesEnd(s, e) == u
    ensures i <= e <= u && u + 2 <= |s|
    ensures ExtractSizeMatchedUnit(Some(s)) == s[i..e] + " " + Upper(s[u..u + 2])
  {
    assert MatchAt(s, i) == Some(e);
  }

  /** The matched unit is always "GB" or "MB", whatever its case in the text. */
  lemma MatchedUnitIsGbOrMb(s: string, i: nat, n: nat, w: nat)
    requires MatchSplit(s, i, n, w)
    ensures Upper(s[i + n + w..i + n + w + 2]) in {"GB", "MB"}
  {
    var u := i + n + w;
    assert "gb "[0] == 'g' && "mb "[0] == 'm' && "gb "[1] == 'b' && "mb "[1] == 'b';
    var up := Upper(s[u..u + 2]);
    assert up == [UpperChar(s[u]), UpperChar(s[u + 1])];
  }

  /** Such a text gives `digits` with its own unit, upper-cased. */
  lemma MatchedUnitOfSizeLine(digits: string, unit: string, rest: string)
    requires IsDecimal(digits) && IsUnitWord(unit)
    ensures ExtractSizeMatchedUnit(Some(SizeLine(digits, unit, rest))) == digits + " " + Upper(unit)
  {
    LeadingSizeMatches(digits, unit, rest);
    MatchedUnitAtLeftmost(SizeLine(digits, unit, rest), 0, |digits|, 1);
  }

  /** Whatever unit the match spells, a "GB" anywhere after it makes the
      program report gigabytes: "500 MB available space, 4 GB RAM" reports
      "500 GB". */
  lemma ReportedUnitTakenFromElsewhere(digits: string, unit: string, rest: string)
    requires IsDecimal(digits) && IsUnitWord(unit) && Contains(rest, "GB")
    ensures ExtractSize(Some(SizeLine(digits, unit, rest))) == digits + " GB"
  {
    ExtractSizeOfSizeLine(digits, unit, rest);
    ContainsInSuffix(digits + " " + unit + " available space", rest, "GB");
  }

  /** A unit spelled without a capital G, such as "gb", matches the
      case-insensitive search but fails the case-sensitive unit test, so the
      program reports megabytes: "20 gb available space" reports "20 MB". */
  lemma GbWithoutCapitalReportedAsMb(digits: string, unit: string, rest: string)
    requires IsDecimal(digits) && IsUnitWord(unit) && 'G' !in unit && 'G' !in rest
    ensures ExtractSize(Some(SizeLine(digits, unit, rest))) == digits + " MB"
  {
    ExtractSizeOfSizeLine(digits, unit, rest);
    NoGInSizeLine(digits, unit, rest);
  }

  /** Without a capital G in the unit or the rest, the text holds no "GB". */
  lemma NoGInSizeLine(digits: string, unit: string, rest: string)
    requires IsDecimal(digits) && 'G' !in unit && 'G' !in rest
    ensures !Contains(SizeLine(digits, unit, rest), "GB")
  {
    assert 'G' !in digits by {
      forall k | 0 <= k < |digits|
        ensures digits[k] != 'G'
      {
        assert IsDigit(digits[k]);
      }
    }
    assert 'G' !in " available space";
    NoOccurrenceOfAbsentChar(SizeLine(digits, unit, rest), "GB");
  }

  /** A string lacking the first character of `p` does not contain `p`. */
  lemma NoOccurrenceOfAbsentChar(s: string, p: string)
    requires |p| > 0 && p[0] !in s
    ensures !Contains(s, p)
  {
    ContainsIff(s, p);
    forall k | 0 <= k && k + |p| <= |s|
      ensures !OccursAt(s, p, k)
    {
      assert s[k..k + |p|][0] == s[k];
    }
  }
}

=== FILE: sorting.dfy ===
/** `sorted(xs, key=k)` and `sorted(xs, key=k, reverse=True)` for string keys:
    a stable sort, so items with equal keys keep their input order in both
    directions. */
module Sorting {
  import opened Text

  /** `a` may come before `b`: ascending, or descending when `desc`. */
  predicate InOrder(a: string, b: string, desc: bool) {
    if desc then StrLe(b, a) else StrLe(a, b)
  }

  ghost predicate SortedBy<T>(xs: seq<T>, key: T -> string, desc: bool) {
    forall i, j :: 0 <= i < j < |xs| ==> InOrder(key(xs[i]), key(xs[j]), desc)
  }

  /** The items of `xs` whose key is `k`, in their order in `xs`. */
  function WithKey<T>(xs: seq<T>, key: T -> string, k: string): seq<T> {
    if xs == [] then []
    else (if key(xs[0]) == k then [xs[0]] else []) + WithKey(xs[1..], key, k)
  }

  /** The relative order of every group of equal keys is the same in `ys` as
      in `xs`. */
  ghost predicate SameGroups<T>(ys: seq<T>, xs: seq<T>, key: T -> string) {
    forall k :: WithKey(ys, key, k) == WithKey(xs, key, k)
  }

  lemma {:induction false} WithKeyAppend<T>(a: seq<T>, b: seq<T>, key: T -> string, k: string)
    ensures WithKey(a + b, key, k) == WithKey(a, key, k) + WithKey(b, key, k)
    decreases |a|
  {
    if a == [] {
      assert a + b == b;
    } else {
      var head := if key(a[0]) == k then [a[0]] else [];
      assert (a + b)[0] == a[0];
      assert (a + b)[1..] == a[1..] + b;
      assert WithKey(a + b, key, k) == head + WithKey(a[1..] + b, key, k);
      WithKeyAppend(a[1..], b, key, k);
      var x, y := WithKey(a[1..], key, k), WithKey(b, key, k);
      assert head + (x + y) == (head + x) + y;
    }
  }

  lemma InOrderTotal(a: string, b: string, desc: bool)
    ensures InOrder(a, b, desc) || InOrder(b, a, desc)
  {
    StrLeTotal(a, b);
  }

  lemma InOrderTrans(a: string, b: string, c: string, desc: bool)
    requires InOrder(a, b, desc) && InOrder(b, c, desc)
    ensures InOrder(a, c, desc)
  {
    if desc { StrLeTrans(c, b, a); } else { StrLeTrans(a, b, c); }
  }

  lemma InOrderRefl(a: string, desc: bool)
    ensures InOrder(a, a, desc)
  {
    StrLeRefl(a);
  }

  /** Places `x` before the first item it may precede, after every item that
      strictly precedes it. */
  function Insert<T>(x: T, ys: seq<T>, key: T -> string, desc: bool): seq<T> {
    if ys == [] then [x]
    else if InOrder(key(x), key(ys[0]), desc) then [x] + ys
    else [ys[0]] + Insert(x, ys[1..], key, desc)
  }

  lemma {:induction false} InsertMultiset<T>(x: T, ys: seq<T>, key: T -> string, desc: bool)
    ensures multiset(Insert(x, ys, key, desc)) == multiset(ys) + multiset{x}
    decreases |ys|
  {
    if ys != [] && !InOrder(key(x), key(ys[0]), desc) {
      InsertMultiset(x, ys[1..], key, desc);
      assert ys == [ys[0]] + ys[1..];
    }
  }

  /** A key that may precede `x` and every item of `ys` may precede every item
      of the insertion. */
  lemma {:induction false} InsertBound<T>(b: string, x: T, ys: seq<T>, key: T -> string, desc: bool)
    requires InOrder(b, key(x), desc)
    requires forall i :: 0 <= i < |ys| ==> InOrder(b, key(ys[i]), desc)
    ensures forall i :: 0 <= i < |Insert(x, ys, key, desc)| ==> InOrder(b, key(Insert(x, ys, key, desc)[i]), desc)
    decreases |ys|
  {
    if ys != [] && !InOrder(key(x), key(ys[0]), desc) {
      InsertBound(b, x, ys[1..], key, desc);
    }
  }

  /** Inserting into a sorted sequence keeps it sorted. */
  lemma {:induction false} InsertSorted<T>(x: T, ys: seq<T>, key: T -> string, desc: bool)
    requires SortedBy(ys, key, desc)
    ensures SortedBy(Insert(x, ys, key, desc), key, desc)
    decreases |ys|
  {
    if ys == [] {
    } else if InOrder(key(x), key(ys[0]), desc) {
      var r := [x] + ys;
      forall i, j | 0 <= i < j < |r|
        ensures InOrder(key(r[i]), key(r[j]), desc)
      {
        if i == 0 && j > 1 {
          InOrderTrans(key(x), key(ys[0]), key(ys[j - 1]), desc);
        }
      }
    } else {
      var rest := Insert(x, ys[1..], key, desc);
      InsertSorted(x, ys[1..], key, desc);
      InOrderTotal(key(x), key(ys[0]), desc);
      InsertBound(key(ys[0]), x, ys[1..], key, desc);
      var r := [ys[0]] + rest;
      assert Insert(x, ys, key, desc) == r;
      forall i, j | 0 <= i < j < |r|
        ensures InOrder(key(r[i]), key(r[j]), desc)
      {
        if i > 0 {
          assert r[i] == rest[i - 1] && r[j] == rest[j - 1];
        }
      }
    }
  }

  lemma WithKeyCons<T>(x: T, xs: seq<T>, key: T -> string, k: string)
    ensures WithKey([x] + xs, key, k) == (if key(x) == k then [x] else []) + WithKey(xs, key, k)
  {
    assert ([x] + xs)[0] == x && ([x] + xs)[1..] == xs;
  }

  /** Moving `x` past an item with a different key changes no group. */
  lemma SwapGroups<T>(x: T, y: T, zs: seq<T>, moved: seq<T>, key: T -> string, k: string)
    requires key(x) != key(y)
    requires WithKey(moved, key, k) == WithKey([x] + zs, key, k)
    ensures WithKey([y] + moved, key, k) == WithKey([x] + ([y] + zs), key, k)
  {
    WithKeyCons(y, moved, key, k);
    WithKeyCons(x, zs, key, k);
    WithKeyCons(x, [y] + zs, key, k);
    WithKeyCons(y, zs, key, k);
  }

  /** `x` only moves past items that strictly precede it, so no group of equal
      keys is reordered. */
  lemma {:induction false} InsertGroups<T>(x: T, ys: seq<T>, key: T -> string, desc: bool)
    ensures SameGroups(Insert(x, ys, key, desc), [x] + ys, key)
    decreases |ys|
  {
    if ys != [] && !InOrder(key(x), key(ys[0]), desc) {
      var y := ys[0];
      var rest := Insert(x, ys[1..], key, desc);
      assert Insert(x, ys, key, desc) == [y] + rest;
      InsertGroups(x, ys[1..], key, desc);
      if key(x) == key(y) {
        InOrderRefl(key(x), desc);
      }
      assert ys == [y] + ys[1..];
      forall k
        ensures WithKey([y] + rest, key, k) == WithKey([x] + ys, key, k)
      {
        SwapGroups(x, y, ys[1..], rest, key, k);
      }
    }
  }

  /** Stable insertion sort: a permutation of `xs`, ordered by key, in which
      items with equal keys appear in their order in `xs`. */
  function StableSort<T>(xs: seq<T>, key: T -> string, desc: bool): (r: seq<T>)
    ensures multiset(r) == multiset(xs)
    ensures SortedBy(r, key, desc)
    ensures SameGroups(r, xs, key)
  {
    if xs == [] then []
    else
      var rest := StableSort(xs[1..], key, desc);
      var r := Insert(xs[0], rest, key, desc);
      InsertMultiset(xs[0], rest, key, desc);
      InsertSorted(xs[0], rest, key, desc);
      InsertGroups(xs[0], rest, key, desc);
      assert xs == [xs[0]] + xs[1..];
      forall k
        ensures WithKey(r, key, k) == WithKey(xs, key, k)
      {
        WithKeyAppend([xs[0]], rest, key, k);
        WithKeyAppend([xs[0]], xs[1..], key, k);
      }
      r
  }
}

=== FILE: text.dfy ===
/** The few operations on `str` the program relies on: case mapping, `in`,
    `replace`, `split`, `title`, `isdigit`, `int`, `str` and the ordering used by
    `sorted`.  Case mapping covers the ASCII letters; every other character is
    treated as caseless. */
module Text {

  predicate IsUpper(c: char) { 'A' <= c <= 'Z' }
  predicate IsLower(c: char) { 'a' <= c <= 'z' }

  /** A cased character in the sense of `str.title`. */
  predicate IsLetter(c: char) { IsUpper(c) || IsLower(c) }

  predicate IsDigit(c: char) { '0' <= c <= '9' }

  function LowerChar(c: char): char {
    if IsUpper(c) then (c as int + 32) as char else c
  }

  function UpperChar(c: char): char {
    if IsLower(c) then (c as int - 32) as char else c
  }

  /** `str.lower()` */
  function Lower(s: string): (r: string)
    ensures |r| == |s|
  {
    seq(|s|, i requires 0 <= i < |s| => LowerChar(s[i]))
  }

  /** `str.upper()` */
  function Upper(s: string): (r: string)
    ensures |r| == |s|
  {
    seq(|s|, i requires 0 <= i < |s| => UpperChar(s[i]))
  }

  /** `lower()` keeps every character up to its case and leaves no
      upper-case letter. */
  lemma LowerKeepsLetters(s: string)
    ensures forall i :: 0 <= i < |s| ==> !IsUpper(Lower(s)[i]) && UpperChar(Lower(s)[i]) == UpperChar(s[i])
  {
  }

  /** `upper()` keeps every character up to its case and leaves no
      lower-case letter. */
  lemma UpperKeepsLetters(s: string)
    ensures forall i :: 0 <= i < |s| ==> !IsLower(Upper(s)[i]) && LowerChar(Upper(s)[i]) == LowerChar(s[i])
  {
  }

  lemma LowerSlice(s: string, i: nat, j: nat)
    requires i <= j <= |s|
    ensures Lower(s)[i..j] == Lower(s[i..j])
  {
  }

  /** Lower-casing forgets any earlier upper-casing. */
  lemma LowerOfUpper(s: string)
    ensures Lower(Upper(s)) == Lower(s)
  {
  }

  /** The only strings that `upper()` turns into "B" are "b" and "B". */
  lemma UpperIsB(s: string)
    ensures Upper(s) == "B" <==> s == "b" || s == "B"
  {
    if Upper(s) == "B" {
      assert |s| == 1 && Upper(s)[0] == UpperChar(s[0]);
      assert s == [s[0]];
    }
  }

  // ---------------------------------------------------------------------
  // Substring test: the `in` operator on strings

  predicate StartsWith(s: string, p: string) {
    |p| <= |s| && s[..|p|] == p
  }

  /** `p` occurs in `s` starting at index `i`. */
  predicate OccursAt(s: string, p: string, i: int) {
    0 <= i && i + |p| <= |s| && s[i..i + |p|] == p
  }

  /** `p in s`, computed by trying each starting position from the left. */
  predicate Contains(s: string, p: string)
    decreases |s|
  {
    StartsWith(s, p) || (|s| > 0 && Contains(s[1..], p))
  }

  /** Occurrences in `s[1..]` are the occurrences in `s` shifted by one. */
  lemma OccursShift(s: string, p: string, j: nat)
    requires |s| > 0
    ensures OccursAt(s[1..], p, j) <==> OccursAt(s, p, j + 1)
  {
    if j + |p| <= |s[1..]| {
      assert s[1..][j..j + |p|] == s[j + 1..j + 1 + |p|];
    }
  }

  /** The scan agrees with the definition of a substring: some occurrence exists. */
  lemma {:induction false} ContainsIff(s: string, p: string)
    ensures Contains(s, p) <==> exists i :: OccursAt(s, p, i)
    decreases |s|
  {
    if StartsWith(s, p) {
      assert OccursAt(s, p, 0);
    } else if |s| > 0 {
      ContainsIff(s[1..], p);
      if Contains(s[1..], p) {
        var i: nat :| OccursAt(s[1..], p, i);
        OccursShift(s, p, i);
      } else {
        forall i | 0 < i
          ensures !OccursAt(s, p, i)
        {
          OccursShift(s, p, i - 1);
        }
        assert !OccursAt(s, p, 0);
      }
    }
  }

  /** Any occurrence makes `Contains` true. */
  lemma ContainsAt(s: string, p: string, i: int)
    requires OccursAt(s, p, i)
    ensures Contains(s, p)
  {
    ContainsIff(s, p);
  }

  /** What a suffix contains, the whole string contains. */
  lemma ContainsInSuffix(a: string, b: string, p: string)
    requires Contains(b, p)
    ensures Contains(a + b, p)
  {
    ContainsIff(b, p);
    var i :| OccursAt(b, p, i);
    assert (a + b)[|a| + i..|a| + i + |p|] == b[i..i + |p|];
    ContainsAt(a + b, p, |a| + i);
  }

  /** Every string contains the empty string. */
  lemma ContainsEmpty(s: string)
    ensures Contains(s, "")
  {
    assert OccursAt(s, "", 0);
    ContainsIff(s, "");
  }

  // ---------------------------------------------------------------------
  // `s.replace(p, "")`

  /** Deletes the occurrences of `p` found by a left-to-right scan that resumes
      after each deleted occurrence, as `str.replace(p, "")` does. */
  function RemoveAll(s: string, p: string): (r: string)
    requires |p| > 0
    ensures |r| <= |s|
    decreases |s|
  {
    if s == [] then []
    else if StartsWith(s, p) then RemoveAll(s[|p|..], p)
    else [s[0]] + RemoveAll(s[1..], p)
  }

  /** A string without an occurrence is left unchanged. */
  lemma {:induction false} RemoveAllAbsent(s: string, p: string)
    requires |p| > 0 && !Contains(s, p)
    ensures RemoveAll(s, p) == s
    decreases |s|
  {
    if s != [] {
      assert !StartsWith(s, p);
      RemoveAllAbsent(s[1..], p);
      assert [s[0]] + s[1..] == s;
    }
  }

  /** Positions free of `p` in `s` stay free in `s[1..]`, one place earlier. */
  lemma NoneBeforeInTail(s: string, p: string, i: nat)
    requires 0 < i && |s| > 0
    requires forall j :: 0 <= j < i ==> !OccursAt(s, p, j)
    ensures forall j :: 0 <= j < i - 1 ==> !OccursAt(s[1..], p, j)
  {
    forall j: nat | j < i - 1
      ensures !OccursAt(s[1..], p, j)
    {
      OccursShift(s, p, j);
    }
  }

  /** The scan from the left first meets `p` at index `i`. */
  predicate FirstAt(s: string, p: string, i: nat)
    decreases |s|
  {
    if StartsWith(s, p) then i == 0 else |s| > 0 && i > 0 && FirstAt(s[1..], p, i - 1)
  }

  /** An occurrence with none before it is where the scan first meets `p`. */
  lemma {:induction false} FirstAtOf(s: string, p: string, i: nat)
    requires OccursAt(s, p, i)
    requires forall j :: 0 <= j < i ==> !OccursAt(s, p, j)
    ensures FirstAt(s, p, i)
    decreases i
  {
    if i == 0 {
      assert StartsWith(s, p);
    } else {
      assert !OccursAt(s, p, 0);
      assert !StartsWith(s, p);
      OccursShift(s, p, i - 1);
      NoneBeforeInTail(s, p, i);
      FirstAtOf(s[1..], p, i - 1);
    }
  }

  lemma RemoveAllStep(s: string, p: string)
    requires |p| > 0 && |s| > 0 && !StartsWith(s, p)
    ensures RemoveAll(s, p) == [s[0]] + RemoveAll(s[1..], p)
  {
  }

  lemma {:induction false} RemoveAllFirst(s: string, p: string, i: nat)
    requires |p| > 0 && i + |p| <= |s| && FirstAt(s, p, i)
    ensures RemoveAll(s, p) == s[..i] + RemoveAll(s[i + |p|..], p)
    decreases i
  {
    if i == 0 {
      assert StartsWith(s, p);
      assert s[..0] == [];
    } else {
      assert !StartsWith(s, p) && FirstAt(s[1..], p, i - 1);
      RemoveAllFirst(s[1..], p, i - 1);
      RemoveAllShiftBack(s, p, i);
    }
  }

  /** What the scan keeps of `s[1..]` before index `i - 1`, it keeps of `s`
      before `i`, behind the first character. */
  lemma RemoveAllShiftBack(s: string, p: string, i: nat)
    requires |p| > 0 && 0 < i && i + |p| <= |s| && !StartsWith(s, p)
    requires RemoveAll(s[1..], p) == s[1..][..i - 1] + RemoveAll(s[1..][i - 1 + |p|..], p)
    ensures RemoveAll(s, p) == s[..i] + RemoveAll(s[i + |p|..], p)
  {
    var tail := RemoveAll(s[i + |p|..], p);
    RemoveAllStep(s, p);
    RemoveAllOfSameSuffix(s, p, i);
    ConsSplit(s, i, |p|, tail);
  }

  lemma RemoveAllOfSameSuffix(s: string, p: string, i: nat)
    requires |p| > 0 && 0 < i && i + |p| <= |s|
    ensures RemoveAll(s[1..][i - 1 + |p|..], p) == RemoveAll(s[i + |p|..], p)
  {
    assert s[1..][i - 1 + |p|..] == s[i + |p|..];
  }

  /** The leftmost occurrence is deleted and the scan resumes right after it:
      everything before it is kept verbatim. */
  lemma RemoveAllLeftmost(s: string, p: string, i: nat)
    requires |p| > 0 && OccursAt(s, p, i)
    requires forall j :: 0 <= j < i ==> !OccursAt(s, p, j)
    ensures RemoveAll(s, p) == s[..i] + RemoveAll(s[i + |p|..], p)
  {
    FirstAtOf(s, p, i);
    RemoveAllFirst(s, p, i);
  }

  lemma ConsSplit(s: string, i: nat, m: nat, tail: string)
    requires 0 < i && i + m <= |s|
    ensures s[1..][i - 1 + m..] == s[i + m..]
    ensures [s[0]] + (s[1..][..i - 1] + tail) == s[..i] + tail
  {
    assert [s[0]] + s[1..][..i - 1] == s[..i];
  }

  // ---------------------------------------------------------------------
  // `s.split(c)[0]`

  /** The text before the first `c`, or all of `s` when `c` does not occur. */
  function BeforeFirst(s: string, c: char): (r: string)
    ensures |r| <= |s| && r == s[..|r|]
    ensures c !in r
    ensures |r| < |s| ==> s[|r|] == c
  {
    if s == [] then []
    else if s[0] == c then []
    else [s[0]] + BeforeFirst(s[1..], c)
  }

  /** `BeforeFirst` stops at the first `c`. */
  lemma BeforeFirstUpTo(s: string, c: char, i: nat)
    requires i < |s| && s[i] == c
    requires forall k :: 0 <= k < i ==> s[k] != c
    ensures |BeforeFirst(s, c)| == i
  {
    var r := BeforeFirst(s, c);
    assert forall k :: 0 <= k < |r| ==> r[k] == s[k];
  }

  // ---------------------------------------------------------------------
  // `str.title()`

  /** How `title` rewrites `c` given whether the preceding character is cased. */
  function TitleChar(c: char, afterCased: bool): (r: char)
    ensures r == c || (IsLetter(c) && IsLetter(r))
  {
    if !IsLetter(c) then c
    else if afterCased then LowerChar(c)
    else UpperChar(c)
  }

  /** `title` applied to `s` when the character before `s` was cased or not. */
  function TitleFrom(s: string, afterCased: bool): (r: string)
    ensures |r| == |s|
    ensures forall i :: 0 <= i < |s| ==>
      r[i] == TitleChar(s[i], if i == 0 then afterCased else IsLetter(s[i - 1]))
    ensures forall c :: !IsLetter(c) ==> (c in r <==> c in s)
  {
    if s == [] then []
    else [TitleChar(s[0], afterCased)] + TitleFrom(s[1..], IsLetter(s[0]))
  }

  /** `str.title()`: a letter is upper-cased when it starts the string or
      follows a non-letter, lower-cased when it follows a letter. */
  function Title(s: string): string {
    TitleFrom(s, false)
  }

  // ---------------------------------------------------------------------
  // `str.isdigit()`, `int(s)` and `str(n)` on decimal numerals

  /** `s.isdigit()` for ASCII digits: non-empty and digits only. */
  predicate IsDecimal(s: string) {
    |s| > 0 && forall i :: 0 <= i < |s| ==> IsDigit(s[i])
  }

  function DigitValue(c: char): nat
    requires IsDigit(c)
  {
    c as int - '0' as int
  }

  function DigitChar(d: nat): (c: char)
    requires d < 10
    ensures IsDigit(c) && DigitValue(c) == d
  {
    ('0' as int + d) as char
  }

  function Pow10(k: nat): (r: nat)
    ensures r >= 1
  {
    if k == 0 then 1 else 10 * Pow10(k - 1)
  }

  /** `int(s)` for a string of decimal digits (leading zeros allowed): a
      numeral of `k` digits stands for a number below `10^k`. */
  function DecimalValue(s: string): (r: nat)
    requires forall i :: 0 <= i < |s| ==> IsDigit(s[i])
    ensures r < Pow10(|s|)
  {
    if s == [] then 0
    else 10 * DecimalValue(s[..|s| - 1]) + DigitValue(s[|s| - 1])
  }

  /** The most digits `int(s)` converts: CPython's default
      `sys.int_info.default_max_str_digits`, in force from Python 3.11 on
      and in the 3.10.7, 3.9.14, 3.8.14 and 3.7.14 security releases.
      On a longer numeral, leading zeros included, `int` raises `ValueError`. */
  const MaxStrDigits: nat := 4300

  /** `int(s)` raises on this numeral: it has too many digits. */
  predicate IntRaises(s: string) {
    |s| > MaxStrDigits
  }

  /** `str(n)` for a natural number: its decimal numeral without leading zeros. */
  function ShowNat(n: nat): (r: string)
    ensures IsDecimal(r)
    ensures r[0] == '0' ==> n == 0
  {
    if n < 10 then [DigitChar(n)]
    else ShowNat(n / 10) + [DigitChar(n % 10)]
  }

  /** `int(str(n)) == n`. */
  lemma {:induction false} ShowNatRoundTrip(n: nat)
    ensures DecimalValue(ShowNat(n)) == n
  {
    if n >= 10 {
      ShowNatRoundTrip(n / 10);
      var s := ShowNat(n);
      assert s[..|s| - 1] == ShowNat(n / 10);
    }
  }

  /** `int("0" + s) == int(s)`: a leading zero adds nothing. */
  lemma {:induction false} DecimalLeadingZero(s: string)
    requires forall i :: 0 <= i < |s| ==> IsDigit(s[i])
    ensures DecimalValue("0" + s) == DecimalValue(s)
    decreases |s|
  {
    if s != [] {
      var t := "0" + s;
      var n := |s| - 1;
      assert t[..|t| - 1] == "0" + s[..n];
      assert t[|t| - 1] == s[n];
      DecimalLeadingZero(s[..n]);
    }
  }

  /** `upper()` leaves a numeral unchanged. */
  lemma UpperOfDecimal(s: string)
    requires IsDecimal(s)
    ensures Upper(s) == s
  {
  }

  /** `upper()` neither makes nor unmakes a numeral. */
  lemma UpperKeepsDecimal(s: string)
    ensures IsDecimal(Upper(s)) <==> IsDecimal(s)
    ensures IsDecimal(s) ==> Upper(s) == s
  {
    if IsDecimal(Upper(s)) {
      forall i | 0 <= i < |s|
        ensures IsDigit(s[i])
      {
        assert IsDigit(Upper(s)[i]);
      }
    }
  }

  // ---------------------------------------------------------------------
  // Ordering of `str` values: code-point lexicographic order

  /** `a <= b` for Python strings. */
  predicate StrLe(a: string, b: string)
    decreases |a|
  {
    a == [] || (b != [] && (a[0] < b[0] || (a[0] == b[0] && StrLe(a[1..], b[1..]))))
  }

  lemma {:induction false} StrLeRefl(a: string)
    ensures StrLe(a, a)
    decreases |a|
  {
    if a != [] {
      StrLeRefl(a[1..]);
    }
  }

  lemma {:induction false} StrLeTotal(a: string, b: string)
    ensures StrLe(a, b) || StrLe(b, a)
    decreases |a|
  {
    if a != [] && b != [] && a[0] == b[0] {
      StrLeTotal(a[1..], b[1..]);
    }
  }

  lemma {:induction false} StrLeAntisym(a: string, b: string)
    requires StrLe(a, b) && StrLe(b, a)
    ensures a == b
    decreases |a|
  {
    if a != [] {
      StrLeAntisym(a[1..], b[1..]);
      assert a == [a[0]] + a[1..] && b == [b[0]] + b[1..];
    }
  }

  lemma {:induction false} StrLeTrans(a: string, b: string, c: string)
    requires StrLe(a, b) && StrLe(b, c)
    ensures StrLe(a, c)
    decreases |a|
  {
    if a != [] && a[0] == b[0] && b[0] == c[0] {
      StrLeTrans(a[1..], b[1..], c[1..]);
    }
  }
}

=== FILE: timestamps.dfy ===
/** The catalog's timestamps: `%Y-%m-%dT%H:%M:%SZ` strings, parsed with
    `datetime.strptime`, compared as `datetime` values and shown with
    `strftime('%Y-%m-%d %H:%M')`. */
module Timestamps {
  import opened Text

  /** The date substituted wherever a version record or its date is missing. */
  const DefaultDate: string := "2000-01-01T00:00:00Z"

  /** Positions of the separators in "YYYY-MM-DDTHH:MM:SSZ". */
  predicate IsSeparatorPos(i: int) {
    i == 4 || i == 7 || i == 10 || i == 13 || i == 16 || i == 19
  }

  /** `d` has the exact shape "YYYY-MM-DDTHH:MM:SSZ" with ASCII digits. */
  predicate IsCanonical(d: string) {
    |d| == 20
    && d[4] == '-' && d[7] == '-' && d[10] == 'T' && d[13] == ':' && d[16] == ':' && d[19] == 'Z'
    && forall i :: 0 <= i < 20 && !IsSeparatorPos(i) ==> IsDigit(d[i])
  }

  lemma DefaultDateIsCanonical()
    ensures IsCanonical(DefaultDate)
  {
  }

  /** The value of the `w`-digit field starting at `i`. */
  function Field(d: string, i: nat, w: nat): nat
    requires IsCanonical(d) && i + w <= 20
    requires forall k :: i <= k < i + w ==> !IsSeparatorPos(k)
  {
    DecimalValue(d[i..i + w])
  }

  /** Year, month, day, hour, minute and second, the fields `datetime`
      compares in this order. */
  function Fields(d: string): seq<nat>
    requires IsCanonical(d)
  {
    [Field(d, 0, 4), Field(d, 5, 2), Field(d, 8, 2), Field(d, 11, 2), Field(d, 14, 2), Field(d, 17, 2)]
  }

  /** Lexicographic order on equally long sequences of numbers. */
  predicate NatsLe(xs: seq<nat>, ys: seq<nat>)
    requires |xs| == |ys|
    decreases |xs|
  {
    xs == [] || xs[0] < ys[0] || (xs[0] == ys[0] && NatsLe(xs[1..], ys[1..]))
  }

  /** `a <= b` as `datetime` values: the earlier (or same) instant. */
  predicate ChronoLe(a: string, b: string)
    requires IsCanonical(a) && IsCanonical(b)
  {
    NatsLe(Fields(a), Fields(b))
  }

  // ---------------------------------------------------------------------
  // String order agrees with chronological order

  /** Comparing `x1 + x2` with `y1 + y2` where `x1` and `y1` are equally long
      compares the first parts, and the second parts only on a tie. */
  lemma {:induction false} StrLeConcat(x1: string, x2: string, y1: string, y2: string)
    requires |x1| == |y1|
    ensures StrLe(x1 + x2, y1 + y2) <==> (x1 == y1 && StrLe(x2, y2)) || (x1 != y1 && StrLe(x1, y1))
    decreases |x1|
  {
    if x1 != [] {
      assert (x1 + x2)[0] == x1[0] && (y1 + y2)[0] == y1[0];
      assert (x1 + x2)[1..] == x1[1..] + x2 && (y1 + y2)[1..] == y1[1..] + y2;
      StrLeConcat(x1[1..], x2, y1[1..], y2);
      if x1[0] == y1[0] {
        assert x1 == y1 <==> x1[1..] == y1[1..] by {
          assert x1 == [x1[0]] + x1[1..] && y1 == [y1[0]] + y1[1..];
        }
      }
    } else {
      assert x1 + x2 == x2 && y1 + y2 == y2;
    }
  }

  /** On numerals of one width, string order is numeric order and equal
      strings are equal numbers. */
  lemma {:induction false} FixedWidthOrder(x: string, y: string)
    requires |x| == |y|
    requires forall i :: 0 <= i < |x| ==> IsDigit(x[i])
    requires forall i :: 0 <= i < |y| ==> IsDigit(y[i])
    ensures StrLe(x, y) <==> DecimalValue(x) <= DecimalValue(y)
    ensures x == y <==> DecimalValue(x) == DecimalValue(y)
    decreases |x|
  {
    if x != [] {
      var n := |x| - 1;
      var x1, y1 := x[..n], y[..n];
      FixedWidthOrder(x1, y1);
      assert x == x1 + [x[n]] && y == y1 + [y[n]];
      StrLeConcat(x1, [x[n]], y1, [y[n]]);
      assert StrLe([x[n]], [y[n]]) <==> x[n] <= y[n] by {
        assert [x[n]][1..] == [] && [y[n]][1..] == [];
      }
      assert x == y <==> x1 == y1 && x[n] == y[n];
    }
  }

  /** A run of `w` digits at `i` in both strings decides the comparison of
      the rest of the strings unless the two numbers tie. */
  lemma DigitsStep(a: string, b: string, i: nat, w: nat)
    requires i + w <= |a| && i + w <= |b|
    requires forall k :: i <= k < i + w ==> IsDigit(a[k]) && IsDigit(b[k])
    ensures StrLe(a[i..], b[i..]) <==>
      DecimalValue(a[i..i + w]) < DecimalValue(b[i..i + w])
      || (DecimalValue(a[i..i + w]) == DecimalValue(b[i..i + w]) && StrLe(a[i + w..], b[i + w..]))
  {
    var x, y := a[i..i + w], b[i..i + w];
    assert forall k :: 0 <= k < w ==> x[k] == a[i + k] && y[k] == b[i + k];
    assert a[i..] == x + a[i + w..] && b[i..] == y + b[i + w..];
    StrLeConcat(x, a[i + w..], y, b[i + w..]);
    FixedWidthOrder(x, y);
  }

  /** One numeric field of width `w` at `i`: it decides the comparison of the
      rest of the strings unless it ties. */
  lemma FieldStep(a: string, b: string, i: nat, w: nat)
    requires IsCanonical(a) && IsCanonical(b) && i + w <= 20
    requires forall k :: i <= k < i + w ==> !IsSeparatorPos(k)
    ensures StrLe(a[i..], b[i..]) <==>
      Field(a, i, w) < Field(b, i, w) || (Field(a, i, w) == Field(b, i, w) && StrLe(a[i + w..], b[i + w..]))
  {
    DigitsStep(a, b, i, w);
  }

  /** A separator both strings share does not affect the comparison. */
  lemma SeparatorStep(a: string, b: string, i: nat)
    requires i < |a| && i < |b| && a[i] == b[i]
    ensures StrLe(a[i..], b[i..]) <==> StrLe(a[i + 1..], b[i + 1..])
  {
    assert a[i..][1..] == a[i + 1..] && b[i..][1..] == b[i + 1..];
  }

  /** Where field `j` starts; index 6 is the closing "Z". */
  function FieldStart(j: nat): nat
    requires j <= 6
  {
    [0, 5, 8, 11, 14, 17, 19][j]
  }

  function FieldWidth(j: nat): nat
    requires j < 6
  {
    if j == 0 then 4 else 2
  }

  /** Field `j` of `Fields(d)` is the number written at `FieldStart(j)`, and
      the character after it is a separator every canonical string shares. */
  lemma FieldAt(d: string, j: nat)
    requires IsCanonical(d) && j < 6
    ensures FieldStart(j) + FieldWidth(j) < 20
    ensures FieldStart(j + 1) == FieldStart(j) + FieldWidth(j) + (if j < 5 then 1 else 0)
    ensures forall k :: FieldStart(j) <= k < FieldStart(j) + FieldWidth(j) ==> !IsSeparatorPos(k)
    ensures Fields(d)[j] == Field(d, FieldStart(j), FieldWidth(j))
    ensures d[FieldStart(j) + FieldWidth(j)] == "--T::Z"[j]
  {
    if j == 0 {
      assert FieldStart(0) == 0 && FieldWidth(0) == 4 && FieldStart(1) == 5;
    } else if j == 1 {
      assert FieldStart(1) == 5 && FieldWidth(1) == 2 && FieldStart(2) == 8;
    } else if j == 2 {
      assert FieldStart(2) == 8 && FieldWidth(2) == 2 && FieldStart(3) == 11;
    } else if j == 3 {
      assert FieldStart(3) == 11 && FieldWidth(3) == 2 && FieldStart(4) == 14;
    } else if j == 4 {
      assert FieldStart(4) == 14 && FieldWidth(4) == 2 && FieldStart(5) == 17;
    } else {
      assert FieldStart(5) == 17 && FieldWidth(5) == 2 && FieldStart(6) == 19;
    }
  }

  /** Lexicographic order decided at index `j`, or later on a tie. */
  lemma NatsLeStep(xs: seq<nat>, ys: seq<nat>, j: nat)
    requires |xs| == |ys| && j < |xs|
    ensures NatsLe(xs[j..], ys[j..]) <==> xs[j] < ys[j] || (xs[j] == ys[j] && NatsLe(xs[j + 1..], ys[j + 1..]))
  {
    assert xs[j..][0] == xs[j] && ys[j..][0] == ys[j];
    assert xs[j..][1..] == xs[j + 1..] && ys[j..][1..] == ys[j + 1..];
  }

  /** Field `j` decides the comparison from its start, or on a tie the
      comparison from the next field's start. */
  lemma FieldDecides(a: string, b: string, j: nat)
    requires IsCanonical(a) && IsCanonical(b) && j < 6
    ensures StrLe(a[FieldStart(j)..], b[FieldStart(j)..]) <==>
      Fields(a)[j] < Fields(b)[j]
      || (Fields(a)[j] == Fields(b)[j] && StrLe(a[FieldStart(j + 1)..], b[FieldStart(j + 1)..]))
  {
    var i, w := FieldStart(j), FieldWidth(j);
    FieldAt(a, j);
    FieldAt(b, j);
    FieldStep(a, b, i, w);
    if j < 5 {
      SeparatorStep(a, b, i + w);
    }
  }

  /** Comparing the strings from field `j` on compares the fields from `j` on. */
  lemma {:induction false} SuffixOrder(a: string, b: string, j: nat)
    requires IsCanonical(a) && IsCanonical(b) && j <= 6
    ensures StrLe(a[FieldStart(j)..], b[FieldStart(j)..]) <==> NatsLe(Fields(a)[j..], Fields(b)[j..])
    decreases 6 - j
  {
    if j == 6 {
      assert a[19..] == b[19..] == "Z";
      StrLeRefl(a[19..]);
      assert Fields(a)[6..] == [];
    } else {
      FieldDecides(a, b, j);
      SuffixOrder(a, b, j + 1);
      NatsLeStep(Fields(a), Fields(b), j);
    }
  }

  /** Sorting canonical timestamps as strings orders them as `datetime`
      values would. */
  lemma StrLeIsChronological(a: string, b: string)
    requires IsCanonical(a) && IsCanonical(b)
    ensures StrLe(a, b) <==> ChronoLe(a, b)
  {
    SuffixOrder(a, b, 0);
    assert a[0..] == a && b[0..] == b;
    assert Fields(a)[0..] == Fields(a) && Fields(b)[0..] == Fields(b);
  }

  /** Two canonical timestamps are the same string exactly when they denote
      the same instant, so grouping by string is grouping by `datetime`. */
  lemma SameStringSameInstant(a: string, b: string)
    requires IsCanonical(a) && IsCanonical(b)
    ensures a == b <==> Fields(a) == Fields(b)
  {
    if Fields(a) == Fields(b) {
      StrLeIsChronological(a, b);
      StrLeIsChronological(b, a);
      NatsLeRefl(Fields(a));
      StrLeAntisym(a, b);
    }
  }

  lemma {:induction false} NatsLeRefl(xs: seq<nat>)
    ensures NatsLe(xs, xs)
    decreases |xs|
  {
    if xs != [] {
      NatsLeRefl(xs[1..]);
    }
  }

  // ---------------------------------------------------------------------
  // strftime('%Y-%m-%d %H:%M')

  /** The timestamp shown to the minute, "YYYY-MM-DD HH:MM": every character
      up to the minutes is kept except the "T", which becomes a space, and the
      seconds are dropped. */
  function ShowMinutes(d: string): (r: string)
    requires IsCanonical(d)
    ensures |r| == 16 && r[10] == ' '
    ensures forall k :: 0 <= k < 16 && k != 10 ==> r[k] == d[k]
  {
    d[..10] + " " + d[11..16]
  }

  /** Showing to the minute keeps the order: a later timestamp is never shown
      as an earlier minute. */
  lemma ShowMinutesMonotone(a: string, b: string)
    requires IsCanonical(a) && IsCanonical(b) && StrLe(a, b)
    ensures StrLe(ShowMinutes(a), ShowMinutes(b))
  {
    var ra, rb := ShowMinutes(a), ShowMinutes(b);
    assert a == a[..10] + a[10..] && b == b[..10] + b[10..];
    StrLeConcat(a[..10], a[10..], b[..10], b[10..]);
    StrLeConcat(a[..10], " " + a[11..16], b[..10], " " + b[11..16]);
    if a[..10] == b[..10] {
      SeparatorStep(a[10..], b[10..], 0);
      assert a[10..][1..] == a[11..16] + a[16..] && b[10..][1..] == b[11..16] + b[16..];
      StrLeConcat(a[11..16], a[16..], b[11..16], b[16..]);
      SeparatorStep(" " + a[11..16], " " + b[11..16], 0);
      assert (" " + a[11..16])[1..] == a[11..16] && (" " + b[11..16])[1..] == b[11..16];
      if a[11..16] == b[11..16] {
        StrLeRefl(a[11..16]);
      }
    }
    assert ra == a[..10] + (" " + a[11..16]) && rb == b[..10] + (" " + b[11..16]);
  }
}

=== FILE: urls.dfy ===
/** Classification of catalog URLs: the store a game's page belongs to and the
    file host a download link points at (`get_store_name`, `get_host_name`),
    over the network-location part of the URL as `urlparse` splits it off. */
module Urls {
  import opened Wrappers
  import opened Text

  // ---------------------------------------------------------------------
  // The network location (`urlparse(url).netloc`)

  /** Characters `urlparse` accepts in a scheme. */
  predicate IsSchemeChar(c: char) {
    IsLetter(c) || IsDigit(c) || c == '+' || c == '-' || c == '.'
  }

  /** A scheme `urlparse` recognises: a letter followed by scheme characters. */
  predicate IsScheme(s: string) {
    |s| > 0 && IsLetter(s[0]) && forall k :: 0 <= k < |s| ==> IsSchemeChar(s[k])
  }

  predicate IsNetlocDelimiter(c: char) {
    c == '/' || c == '?' || c == '#'
  }

  /** The URL with its `scheme:` prefix removed, when it has one: the text
      before the first ':' must be a scheme. */
  function AfterScheme(url: string): string {
    var i := |BeforeFirst(url, ':')|;
    if i < |url| && IsScheme(url[..i]) then url[i + 1..] else url
  }

  /** The first index at or after `j` holding '/', '?' or '#', or `|s|`. */
  function NetlocEnd(s: string, j: nat): (e: nat)
    requires j <= |s|
    ensures j <= e <= |s|
    ensures forall k :: j <= k < e ==> !IsNetlocDelimiter(s[k])
    ensures e < |s| ==> IsNetlocDelimiter(s[e])
    decreases |s| - j
  {
    if j == |s| || IsNetlocDelimiter(s[j]) then j else NetlocEnd(s, j + 1)
  }

  /** `urlparse(url).netloc`: after the scheme, a leading "//" introduces the
      network location, which runs up to the first '/', '?' or '#'. */
  function Netloc(url: string): (r: string)
    ensures forall k :: 0 <= k < |r| ==> !IsNetlocDelimiter(r[k])
  {
    NetlocOfRest(AfterScheme(url))
  }

  /** The network location of what follows the scheme. */
  function NetlocOfRest(rest: string): (r: string)
    ensures forall k :: 0 <= k < |r| ==> !IsNetlocDelimiter(r[k])
  {
    if StartsWith(rest, "//") then rest[2..NetlocEnd(rest, 2)] else ""
  }

  /** Splitting a composed URL gives back its network location. */
  lemma NetlocOfComposed(scheme: string, host: string, tail: string)
    requires IsScheme(scheme)
    requires forall k :: 0 <= k < |host| ==> !IsNetlocDelimiter(host[k])
    requires tail == [] || IsNetlocDelimiter(tail[0])
    ensures Netloc(scheme + "://" + host + tail) == host
  {
    var rest := "//" + host + tail;
    assert scheme + "://" + host + tail == scheme + ":" + rest;
    AfterSchemeOfComposed(scheme, rest);
    var e := NetlocEnd(rest, 2);
    assert forall k :: 2 <= k < 2 + |host| ==> rest[k] == host[k - 2];
    assert |tail| > 0 ==> IsNetlocDelimiter(rest[2 + |host|]);
    assert e == 2 + |host|;
    assert rest[2..e] == host;
  }

  /** Lower-casing moves no boundary of the split: ':' and the delimiters
      are caseless. */
  lemma NetlocOfLower(url: string)
    ensures Netloc(Lower(url)) == Lower(Netloc(url))
  {
    AfterSchemeOfLower(url);
    NetlocOfRestOfLower(AfterScheme(url));
  }

  lemma NetlocOfRestOfLower(rest: string)
    ensures NetlocOfRest(Lower(rest)) == Lower(NetlocOfRest(rest))
  {
    if StartsWith(rest, "//") {
      var e := NetlocEnd(rest, 2);
      NetlocEndOfLower(rest, 2);
      LowerSlice(rest, 2, e);
    } else {
      assert !StartsWith(Lower(rest), "//");
    }
  }

  lemma AfterSchemeOfLower(url: string)
    ensures AfterScheme(Lower(url)) == Lower(AfterScheme(url))
  {
    var i := |BeforeFirst(url, ':')|;
    LowerKeepsBeforeFirst(url, ':');
    assert Lower(url)[..i] == Lower(url[..i]);
    LowerKeepsScheme(url[..i]);
    assert i < |url| ==> Lower(url)[i + 1..] == Lower(url[i + 1..]);
  }

  lemma LowerKeepsBeforeFirst(s: string, c: char)
    requires !IsLetter(c)
    ensures |BeforeFirst(Lower(s), c)| == |BeforeFirst(s, c)|
  {
    var r := BeforeFirst(s, c);
    if |r| < |s| {
      forall k | 0 <= k < |r|
        ensures Lower(s)[k] != c
      {
        assert s[k] == r[k];
      }
      BeforeFirstUpTo(Lower(s), c, |r|);
    }
  }

  lemma LowerKeepsScheme(s: string)
    ensures IsScheme(Lower(s)) <==> IsScheme(s)
  {
    assert forall k :: 0 <= k < |s| ==> (IsSchemeChar(Lower(s)[k]) <==> IsSchemeChar(s[k]));
  }

  lemma {:induction false} NetlocEndOfLower(s: string, j: nat)
    requires j <= |s|
    ensures NetlocEnd(Lower(s), j) == NetlocEnd(s, j)
    decreases |s| - j
  {
    if j < |s| && !IsNetlocDelimiter(s[j]) {
      NetlocEndOfLower(s, j + 1);
    }
  }

  lemma AfterSchemeOfComposed(scheme: string, rest: string)
    requires IsScheme(scheme)
    ensures AfterScheme(scheme + ":" + rest) == rest
  {
    var url := scheme + ":" + rest;
    BeforeFirstUpTo(url, ':', |scheme|);
    assert url[..|scheme|] == scheme;
    assert url[|scheme| + 1..] == rest;
  }

  // ---------------------------------------------------------------------
  // Ordered substring tables

  /** Entry `k` is the first entry of `table` whose key occurs in `domain`. */
  predicate IsFirstHit<L>(table: seq<(string, L)>, domain: string, k: int) {
    0 <= k < |table| && Contains(domain, table[k].0)
    && forall j :: 0 <= j < k ==> !Contains(domain, table[j].0)
  }

  /** No key of `table` occurs in `domain`. */
  predicate NoHit<L>(table: seq<(string, L)>, domain: string) {
    forall j :: 0 <= j < |table| ==> !Contains(domain, table[j].0)
  }

  function FirstHitFrom<L>(table: seq<(string, L)>, domain: string, i: nat): (r: Option<nat>)
    requires i <= |table|
    ensures r.Some? ==> i <= r.value < |table| && Contains(domain, table[r.value].0)
    ensures r.Some? ==> forall j :: i <= j < r.value ==> !Contains(domain, table[j].0)
    ensures r.None? ==> forall j :: i <= j < |table| ==> !Contains(domain, table[j].0)
    decreases |table| - i
  {
    if i == |table| then None
    else if Contains(domain, table[i].0) then Some(i)
    else FirstHitFrom(table, domain, i + 1)
  }

  /** Scans `table` in order and stops at the first key that is a substring of
      `domain`. */
  function FirstHit<L>(table: seq<(string, L)>, domain: string): (r: Option<nat>)
    ensures r.Some? ==> IsFirstHit(table, domain, r.value)
    ensures r.None? <==> NoHit(table, domain)
  {
    FirstHitFrom(table, domain, 0)
  }

  // ---------------------------------------------------------------------
  // Stores (`get_store_name`)

  datatype Store = Steam | EpicGames | Gog | UnknownStore

  function StoreLabel(s: Store): string {
    match s
    case Steam => "Steam"
    case EpicGames => "Epic Games"
    case Gog => "GOG"
    case UnknownStore => "Unknown Store"
  }

  /** The chain of substring tests on the lower-cased network location. */
  function ClassifyStore(netloc: string): (r: Store)
    ensures r == Steam <==> Contains(Lower(netloc), "steampowered.com")
    ensures r == UnknownStore <==>
      !Contains(Lower(netloc), "steampowered.com") && !Contains(Lower(netloc), "epicgames.com")
      && !Contains(Lower(netloc), "gog.com")
  {
    var domain := Lower(netloc);
    if Contains(domain, "steampowered.com") then Steam
    else if Contains(domain, "epicgames.com") then EpicGames
    else if Contains(domain, "gog.com") then Gog
    else UnknownStore
  }

  /** The store domains in the order they are tried. */
  const StoreTable: seq<(string, Store)> :=
    [("steampowered.com", Steam), ("epicgames.com", EpicGames), ("gog.com", Gog)]

  /** The store is the one of the first table entry whose domain occurs in
      the lower-cased network location, and Unknown Store when none does. */
  lemma ClassifyStoreIsFirstHit(netloc: string)
    ensures var domain := Lower(netloc);
      match FirstHit(StoreTable, domain)
      case Some(k) => ClassifyStore(netloc) == StoreTable[k].1
      case None => ClassifyStore(netloc) == UnknownStore
  {
    var domain := Lower(netloc);
    var h := FirstHit(StoreTable, domain);
    if h.Some? {
      assert IsFirstHit(StoreTable, domain, h.value);
      if h.value >= 1 { assert !Contains(domain, StoreTable[0].0); }
      if h.value >= 2 { assert !Contains(domain, StoreTable[1].0); }
    } else {
      assert NoHit(StoreTable, domain);
      assert !Contains(domain, StoreTable[0].0);
      assert !Contains(domain, StoreTable[1].0);
      assert !Contains(domain, StoreTable[2].0);
    }
  }

  lemma NoStoreHit(domain: string)
    ensures NoHit(StoreTable, domain) <==>
      !Contains(domain, "steampowered.com") && !Contains(domain, "epicgames.com") && !Contains(domain, "gog.com")
  {
    assert StoreTable[0].0 == "steampowered.com";
    assert StoreTable[1].0 == "epicgames.com";
    assert StoreTable[2].0 == "gog.com";
  }

  /** The letter case of a URL never changes its store. */
  lemma StoreNameIgnoresCase(a: string, b: string)
    requires Lower(a) == Lower(b)
    ensures StoreName(a) == StoreName(b)
  {
    NetlocOfLower(a);
    NetlocOfLower(b);
  }

  /** `get_store_name(url)`: always one of exactly four labels. */
  function StoreName(url: string): (r: string)
    ensures r in {"Steam", "Epic Games", "GOG", "Unknown Store"}
    ensures r == "Steam" <==> Contains(Lower(Netloc(url)), "steampowered.com")
    ensures r == "Unknown Store" <==> NoHit(StoreTable, Lower(Netloc(url)))
  {
    NoStoreHit(Lower(Netloc(url)));
    StoreLabel(ClassifyStore(Netloc(url)))
  }

  // ---------------------------------------------------------------------
  // File hosts (`get_host_name`)

  /** Known file hosts, in the order they are tried. */
  const HostTable: seq<(string, string)> := [
    ("drive.google.com", "Google Drive"),
    ("mega.nz", "Mega"),
    ("mediafire.com", "MediaFire"),
    ("dropbox.com", "Dropbox"),
    ("onedrive.live.com", "OneDrive"),
    ("files.fm", "Files.fm"),
    ("1fichier.com", "1Fichier"),
    ("uploaded.net", "Uploaded"),
    ("zippyshare.com", "ZippyShare"),
    ("sendspace.com", "SendSpace"),
    ("rapidgator.net", "RapidGator"),
    ("uptobox.com", "UptoBox"),
    ("pixeldrain.com", "PixelDrain"),
    ("gofile.io", "GoFile"),
    ("anonfiles.com", "AnonFiles")
  ]

  /** The label made from an unknown domain: every "www." removed, the text
      before the first '.', title-cased. */
  function CleanDomain(domain: string): (r: string)
    ensures '.' !in r
  {
    var first := BeforeFirst(RemoveAll(domain, "www."), '.');
    Title(first)
  }

  /** The label of the first known host whose domain occurs in the lower-cased
      network location, else the cleaned-up domain. */
  function ClassifyHost(netloc: string): (r: string)
    ensures forall k :: IsFirstHit(HostTable, Lower(netloc), k) ==> r == HostTable[k].1
    ensures NoHit(HostTable, Lower(netloc)) ==> r == CleanDomain(Lower(netloc))
  {
    var domain := Lower(netloc);
    match FirstHit(HostTable, domain)
    case Some(k) => HostTable[k].1
    case None => CleanDomain(domain)
  }

  /** `get_host_name(url)`: the label of the first known host found in the
      URL's lower-cased network location, else its cleaned-up domain. */
  function HostName(url: string): (r: string)
    ensures forall k :: IsFirstHit(HostTable, Lower(Netloc(url)), k) ==> r == HostTable[k].1
    ensures NoHit(HostTable, Lower(Netloc(url))) ==> r == CleanDomain(Lower(Netloc(url)))
  {
    ClassifyHost(Netloc(url))
  }

  /** The letter case of a URL never changes its host label. */
  lemma HostNameIgnoresCase(a: string, b: string)
    requires Lower(a) == Lower(b)
    ensures HostName(a) == HostName(b)
  {
    NetlocOfLower(a);
    NetlocOfLower(b);
  }
}

=== FILE: wrappers.dfy ===
/** The optional-value datatype used wherever the program tests a value for
    presence (`dict.get`, a missing JSON key, a `None` return). */
module Wrappers {

  datatype Option<+T> = None | Some(value: T) {

    /** The value when present, `default` otherwise (`dict.get(key, default)`). */
    function GetOr(default: T): T {
      match this
      case Some(v) => v
      case None => default
    }
  }
}
